=== FILE: README.md ===
# Incident detector core, modelled in Dafny

This project models the decision pipeline of the AWS incident detector in
`lambda/incident_response.py`: the Lambda handler that reads `INSTANCE_IDS`,
and for every listed EC2 instance reads three utilisation averages,
classifies them against `CPU_HIGH`, `MEM_HIGH` and `DISK_HIGH`, passes the
instance through the DynamoDB cooldown gate `_dedup_ok`, sends a Telegram
alert, optionally snapshots the instance's EBS volumes and optionally
starts a Step Functions playbook, collecting one incident record per alert.

Modules, one per part of the handler:

- `Wrappers`: `Option` (Python's `None`) and `Answer` (a foreign call that
  returns a value or raises).
- `InstanceIds`: `str.strip()`, `str.split(",")` and the comprehension of
  line 118.
- `Classifier`: the three threshold checks of lines 126-129. A signal is
  kept as `(metric, value, threshold)`.
- `Dedup`: `_dedup_ok` as a pure `Gate` over the state table. The class
  `CooldownGate` holds the table as a `map` field, which `Allow` updates in
  place. `GateAsWritten` is the gate as the code runs it against DynamoDB's
  number type (see "## Findings"); the rest of the model uses `Gate`.
- `Effects`: the one ordered log of everything the handler does to the
  outside world (class `Outbox`): Telegram messages, snapshots, tags and
  playbook executions. Also `_telegram` with its no-credentials guard.
- `Snapshots`: `_snapshots_for_instance`, meaning the nested loops that
  collect volume ids and the create-and-tag loop.
- `Handler`: the per-instance evaluation, the loop over the ids and the
  handler itself.

Every external call is an input of the model:

- each metric fetch, `describe_instances` and each `create_snapshot` /
  `create_tags` pair either returns a value or raises;
- `start_execution` either returns or raises;
- each Telegram post is delivered or raises.

The answers seen while the k-th id is evaluated form an `Observation`, and
a whole invocation takes `world: nat -> Observation`. The clock is the
integer `now` of each observation. The stored `last_ts` is written as
`int(time.time())` (line 84) and `COOLDOWN` is an integer, so comparing
with an integer `now` gives the answer the numeric comparison of line 82
would give. As written, that comparison is never reached for an instance
that already has an item; see "## Findings".

Each imperative method is proved against a function that states its result
and its new state:

| method | function it is proved against |
|---|---|
| `CollectVolumeIds` | `VolumeIds` |
| `CreateSnapshots` | `Creating` |
| `EvaluateInstance` | `Evaluate` |
| `Sweep` | `Run` |
| `LambdaHandler` | `Handle` |

The lemmas then state what the source promises about those functions.

How the code handles failures, which the model follows:

- The code does not isolate failures. An exception from a metric fetch
  (lines 122-124), from the alert (line 145) or from an error report in
  either `except` (lines 154 and 170) leaves the handler, and the records
  gathered so far are lost.
- A failure of the "snapshots taken" or "playbook started" message (lines
  152 and 168) is caught by the same `except` as the capture or the start.
  So the error report is sent even though the capture or the start
  succeeded, and `snaps` keeps the snapshot ids.
- The event log records a Telegram post as `Notified` when it is
  attempted (the bot token and channel are set), whether or not it is
  delivered; a failed post then makes
  `_telegram` raise. The other entries record only calls that returned: a
  `create_snapshot`, `create_tags` or `start_execution` that raises leaves
  no entry.
- The gate reads and then writes in two calls (lines 80 and 84). The model
  runs it sequentially, as the code does, and does not claim it is an
  atomic check-and-set.

## Model

| member | source | states |
|---|---|---|
| `InstanceIds.Strip` | lambda/incident_response.py:114 | the result has no white space (in Python's `isspace` sense) at either end and holds only characters of the input |
| `InstanceIds.StripSlice` | lambda/incident_response.py:114 | the result is the input with a run of white space removed at the front and one at the back, and nothing else removed; with `Strip`'s own contract this determines it |
| `InstanceIds.StripBlank` | lambda/incident_response.py:114-115 | `strip()` gives `""` exactly when the value is all white space, which is the "no instances" guard |
| `InstanceIds.StripTrimmed` | lambda/incident_response.py:118 | a string with no white space at either end is left unchanged by `strip()` |
| `InstanceIds.Split` | lambda/incident_response.py:118 | `split(",")` gives at least one piece, and no piece contains a comma |
| `InstanceIds.JoinSplit` | lambda/incident_response.py:118 | joining the pieces with commas gives the original string back, so the split loses nothing |
| `InstanceIds.SplitPrepend` | lambda/incident_response.py:118 | a comma-free prefix joins the first piece of what follows it |
| `InstanceIds.SplitJoin` | lambda/incident_response.py:118 | splitting comma-free pieces joined with commas gives the same pieces back |
| `InstanceIds.Keep` | lambda/incident_response.py:118 | the comprehension keeps at most one id per piece, and every kept id is non-empty and stripped |
| `InstanceIds.KeepMembers` | lambda/incident_response.py:118 | an id is kept if and only if it is non-empty and is the stripped form of some piece |
| `InstanceIds.KeepClean` | lambda/incident_response.py:118 | pieces that are already non-empty and stripped pass through the comprehension unchanged |
| `InstanceIds.ParseIds` | lambda/incident_response.py:118 | every parsed id is non-empty, contains no comma and has no white space at either end |
| `InstanceIds.KeepPositions` | lambda/incident_response.py:118 | the kept ids are the stripped pieces at strictly increasing positions, one per position, so order and repeats are kept, and every piece at any other position strips to `""` |
| `InstanceIds.ParseIdsMembers` | lambda/incident_response.py:114-118 | an id occurs among the parsed ids if and only if it is non-empty and is the stripped form of some comma-separated piece of the stripped value |
| `InstanceIds.ParseIdsPositions` | lambda/incident_response.py:114-118 | the parsed ids follow the pieces of the stripped value in order, one id per non-blank piece (a repeated id is kept twice), and only blank pieces are dropped |
| `InstanceIds.ParseIdsRoundTrip` | lambda/incident_response.py:118 | clean ids written out comma-separated parse back to the same ids in the same order |
| `InstanceIds.OnlySeparators` | lambda/incident_response.py:114-118 | `",,"` is not blank, yet it names no instance |
| `Classifier.Classify` | lambda/incident_response.py:126-129 | at most three signals; each is for a metric whose reading is present and strictly above its threshold, and carries that reading and threshold; metrics come in the order CPU, MEM, DISK with none repeated |
| `Classifier.ClassifyComplete` | lambda/incident_response.py:126-129 | every metric whose reading is present and strictly above its threshold has a signal (the converse of `Classify`) |
| `Classifier.NoBreachAtOrBelow` | lambda/incident_response.py:127-129 | readings at or below their thresholds, or absent, give no signal; equality is not a breach |
| `Classifier.AbsentReadingsNoSignal` | lambda/incident_response.py:127-129 | three absent readings give no signal |
| `Classifier.SingleCpuBreach` | lambda/incident_response.py:127 | a CPU reading of 92 with the default thresholds and no other data gives exactly one CPU signal, with value 92 and threshold 80 |
| `Dedup.Gate` | lambda/incident_response.py:76-85 | definition, with no contract of its own: the corrected gate the rest of the model uses; its properties are the `Dedup` lemmas below |
| `Dedup.DisabledGateAllows` | lambda/incident_response.py:78-79 | with no state table the gate allows and writes nothing |
| `Dedup.GateFrame` | lambda/incident_response.py:80-85 | with a table: allows if and only if `now - last_ts >= COOLDOWN`, with a missing item counted as 0; a refusal leaves the table unchanged; an allowed call writes `now` for this instance and leaves every other instance alone |
| `Dedup.RepeatWithinCooldownRefused` | lambda/incident_response.py:82-83 | a call within `COOLDOWN` of an allowed call for the same instance is refused |
| `Dedup.RepeatAfterCooldownAllowed` | lambda/incident_response.py:82-85 | a call `COOLDOWN` or more after an allowed call for the same instance is allowed |
| `Dedup.DisabledReplayAllowsAll` | lambda/incident_response.py:78-79 | with no table, every call of any series is allowed and the table never changes |
| `Dedup.TableCoversAllowed` | lambda/incident_response.py:84 | after calls in time order, the table holds, for each instance, a time no earlier than any of its allowed calls |
| `Dedup.AllowedAlertsSpaced` | lambda/incident_response.py:76-85 | for calls in time order, two allowed calls for the same instance are at least `COOLDOWN` apart |
| `Dedup.CooldownGate.Allow` | lambda/incident_response.py:76-85 | the answer and the new table content are those of `Gate` on the old table |
| `Dedup.GateAsWritten` | lambda/incident_response.py:80-82 | definition, with no contract of its own: the gate as written, which raises for an instance that has an item |
| `Dedup.AsWrittenRepeatRaises` | lambda/incident_response.py:80-84 | as written, the call after an allowed call for the same instance raises, whatever its time |
| `Dedup.AsWrittenNeverRefuses` | lambda/incident_response.py:78-85 | as written, with the clock past `COOLDOWN`, the gate never refuses: it allows or raises |
| `Dedup.DecimalItemScenario` | lambda/incident_response.py:80-83 | with the default `COOLDOWN` of 900, an item at 1000 and a check at 1060, the intended gate refuses and the code as written raises |
| `Effects.Send` | lambda/incident_response.py:50-56 | definition, with no contract of its own; `SendGuard` states its properties |
| `Effects.SendGuard` | lambda/incident_response.py:50-56 | without both credentials `_telegram` posts nothing and cannot raise; with them it posts exactly the one message, and raises only when the post fails |
| `Effects.Telegram` | lambda/incident_response.py:50-56 | appends to the log exactly what `Send` emits, and raises exactly when `Send` does |
| `Snapshots.VolumeIds` | lambda/incident_response.py:90-96 | definition, with no contract of its own: `vol_ids` in reservation, instance, mapping order; the `*VolumesMembers` lemmas state which ids it holds and `VolumeIdsPositions` states their order |
| `Snapshots.MappingVolumesMembers` | lambda/incident_response.py:93-96 | a volume id is collected from a list of mappings if and only if some mapping has an `Ebs` entry with that non-empty `VolumeId` |
| `Snapshots.InstanceVolumesMembers` | lambda/incident_response.py:92-96 | the same over all mappings of all instances |
| `Snapshots.ReservationVolumesMembers` | lambda/incident_response.py:91-96 | the same over all reservations, so mappings without `Ebs` or `VolumeId` are skipped and no collected id is empty |
| `Snapshots.MappingVolumesAppend` | lambda/incident_response.py:93-96 | the volume ids of two lists of mappings visited one after the other are those of the first list followed by those of the second |
| `Snapshots.InstanceVolumesFlat` | lambda/incident_response.py:92-96 | the volume ids of a list of instances are the volume ids of all their mappings laid end to end, instance after instance (`InstanceMappings`) |
| `Snapshots.ReservationVolumesFlat` | lambda/incident_response.py:91-96 | the volume ids of a response are the volume ids of all its mappings in reservation, instance, mapping order (`ReservationMappings`) |
| `Snapshots.MappingVolumesPositions` | lambda/incident_response.py:93-96 | the collected ids are, one for one, the `VolumeId`s of the mappings at strictly increasing positions; every mapping at another position has no `Ebs` entry or no non-empty `VolumeId` |
| `Snapshots.VolumeIdsPositions` | lambda/incident_response.py:90-96 | the same for `vol_ids` over all mappings of the response in reservation, instance, mapping order: no volume is skipped, reordered or duplicated beyond what the mappings hold |
| `Snapshots.CollectVolumeIds` | lambda/incident_response.py:90-96 | the nested loops collect `VolumeIds`, in reservation, instance, mapping order |
| `Snapshots.Creating` | lambda/incident_response.py:97-111 | definition, with no contract of its own: create then tag each volume in order, stopping at the first call that raises; `RaisedStops`, `CreatingReturned` and `CreatingEvents` state its properties |
| `Snapshots.RaisedStops` | lambda/incident_response.py:98-110 | once a `create_snapshot` or `create_tags` call raises, later volumes are never reached |
| `Snapshots.CreatingReturned` | lambda/incident_response.py:97-111 | the loop returns if and only if every call returned; it then yields one snapshot per volume in volume order, and logs each snapshot's creation from its volume followed by its `IR=true`, `InstanceId=iid` tags |
| `Snapshots.CreatingEvents` | lambda/incident_response.py:98-110 | the loop only creates snapshots of this instance's volumes and tags them `IR=true`, `InstanceId=iid` |
| `Snapshots.Capture` | lambda/incident_response.py:87-111 | definition, with no contract of its own: `describe_instances`, then `Creating` over its volumes |
| `Snapshots.CaptureEvents` | lambda/incident_response.py:87-111 | `_snapshots_for_instance` only creates and tags snapshots |
| `Snapshots.CreateSnapshots` | lambda/incident_response.py:97-111 | the loop's result and its events are those of `Creating` |
| `Snapshots.SnapshotsForInstance` | lambda/incident_response.py:87-111 | the result and the events are those of `Capture`, and a raising `describe_instances` creates nothing |
| `Handler.SnapshotPart` | lambda/incident_response.py:148-154 | definition, with no contract of its own; `SnapshotPartSnapshots` and `SnapshotPartStartsNothing` state its properties |
| `Handler.PlaybookPart` | lambda/incident_response.py:157-170 | definition, with no contract of its own; `FollowUpPayload` states its properties |
| `Handler.FollowUp` | lambda/incident_response.py:147-172 | definition, with no contract of its own; `FollowUpPayload` states its properties |
| `Handler.React` | lambda/incident_response.py:137-172 | definition, with no contract of its own: the alert, then `FollowUp` |
| `Handler.Evaluate` | lambda/incident_response.py:122-172 | definition, with no contract of its own; the per-instance lemmas below state its properties |
| `Handler.Run` | lambda/incident_response.py:120-172 | definition, with no contract of its own; `AbortStops`, `RecordsFollowInputOrder`, `RecordKept`, `QuietPass` and `RerunWithinCooldownSilent` state its properties |
| `Handler.Handle` | lambda/incident_response.py:113-174 | definition, with no contract of its own; the handler lemmas at the end state its properties |
| `Handler.CaptureForensics` | lambda/incident_response.py:148-154 | `snaps`, the events and whether the block raised are those of `SnapshotPart` |
| `Handler.StartPlaybook` | lambda/incident_response.py:157-170 | the events and whether the block raised are those of `PlaybookPart` |
| `Handler.FollowUpIncident` | lambda/incident_response.py:147-172 | the status and events are those of `FollowUp` |
| `Handler.Respond` | lambda/incident_response.py:137-172 | the status and events are those of `React` |
| `Handler.EvaluateInstance` | lambda/incident_response.py:122-172 | the status, the new table and the events are those of `Evaluate` on the old table |
| `Handler.AbortStops` | lambda/incident_response.py:120-124 | once an instance raises, the rest of the list is never evaluated |
| `Handler.Advance` | lambda/incident_response.py:121-172 | one turn of the loop, given the pass over the first `i` ids, raises exactly when that pass extended by the `Evaluate` step of the `i`-th id aborts, appends to the records exactly the record that step makes, and leaves the table and the event log as that extended pass has them; `Sweep` ties the extended pass to `Run` over the first `i + 1` ids |
| `Handler.Sweep` | lambda/incident_response.py:120-172 | whether the loop raised, the records, the table and the events are those of `Run` |
| `Handler.LambdaHandler` | lambda/incident_response.py:113-174 | the response, the new table and the events are those of `Handle` on the old table |
| `Handler.NoSignalsSkipped` | lambda/incident_response.py:131-132 | an instance with no signal is skipped: the table is neither read nor written, nothing is sent and no record is made |
| `Handler.RefusedSkipped` | lambda/incident_response.py:134-136 | an instance the gate refuses is skipped without a trace |
| `Handler.GateBeforeEffects` | lambda/incident_response.py:131-145 | the table changes only through the gate, and only for an instance with signals; nothing is sent, created or recorded unless the gate allowed; with Telegram configured the first event is the incident alert |
| `Handler.SnapshotPartSnapshots` | lambda/incident_response.py:148-151 | `snaps` is empty unless snapshots are on and the capture returned normally, and is then what the capture returned |
| `Handler.RecordContents` | lambda/incident_response.py:126-172 | a record is made only past the gate; it holds the instance, its signals (never none), and the snapshot list described above |
| `Handler.RecordedDespiteSubstepFailures` | lambda/incident_response.py:147-172 | past the gate, a record is made whatever the capture and the playbook do, as long as the alert and the two error reports outside any `try` do not raise |
| `Handler.SnapshotPartStartsNothing` | lambda/incident_response.py:148-154 | the forensics block starts no playbook |
| `Handler.FollowUpPayload` | lambda/incident_response.py:157-172 | after the alert, the playbook is started exactly when it is configured and `start_execution` returns, and only with the record's data |
| `Handler.PayloadMatchesRecord` | lambda/incident_response.py:138-172 | for a recorded instance, every playbook execution carries the incident id and the record's instance, signals and snapshots; one is started if and only if the playbook is configured and `start_execution` returns |
| `Handler.CaptureFailureKeepsPlaybook` | lambda/incident_response.py:148-170 | when the capture raises, the error is reported and the playbook is still started, with no snapshots in its payload |
| `Handler.NoRepeatWithinCooldown` | lambda/incident_response.py:134-136 | with a table, an instance recorded at one time is skipped without a trace when it is evaluated again less than `COOLDOWN` later |
| `Handler.RecordsFollowInputOrder` | lambda/incident_response.py:120-172 | every record is the `Recorded` result of the evaluation of the id at some position that the pass reached without an exception, from the table the ids before it left; the positions increase with the records, and each record names that id and carries the non-empty signals of its own fetched readings |
| `Handler.RecordsGrow` | lambda/incident_response.py:120-172 | the records of a pass over the first `m` ids are a prefix of the records of the whole pass |
| `Handler.RecordKept` | lambda/incident_response.py:120-172 | a record made for the id at a position the pass reaches stays in the pass's records, right after the records of the ids before it, whatever later ids do; with `RecordsFollowInputOrder` this gives exactly one record per recording position, in order |
| `Handler.QuietPass` | lambda/incident_response.py:120-136 | a pass in which every instance, against the starting table, has no signal or is within `COOLDOWN` of its last alert records nothing, sends nothing and leaves the table as it was |
| `Handler.EvaluateKeepsStamp` | lambda/incident_response.py:82-84 | with a cooldown that is not negative, an evaluation never moves an instance's stored time back |
| `Handler.RunKeepsStamp` | lambda/incident_response.py:120-172 | with a cooldown that is not negative, a stored time survives the rest of a pass (a negative `COOLDOWN_SEC` lets the gate overwrite it with an earlier time) |
| `Handler.RecordStamps` | lambda/incident_response.py:134-172 | with a table, a recorded instance is stored with exactly the time of its evaluation, and no other entry of the table changes |
| `Handler.StampSilences` | lambda/incident_response.py:131-136 | with a state table, less than `COOLDOWN` after an instance's stored time, its evaluation sends nothing and records nothing |
| `Handler.RerunWithinCooldownSilent` | lambda/incident_response.py:120-172 | with a state table and a cooldown that is not negative: once a pass records an instance at time `t`, a later pass from the table it left sends nothing and records nothing for that instance at any position whose time is before `t + COOLDOWN` |
| `Handler.BlankListWarns` | lambda/incident_response.py:114-117 | a blank `INSTANCE_IDS` sends the one warning (when Telegram is configured) and returns the "no instances" error, or raises if the warning fails; no instance is evaluated and the table is untouched |
| `Handler.NoInstancesOnlyWhenBlank` | lambda/incident_response.py:114-118 | the "no instances" error is returned if and only if the value is all white space and the warning did not raise |
| `Handler.SeparatorsOnlyNoIncidents` | lambda/incident_response.py:114-174 | `",,"` gives an empty incident list, with no warning and no error |

## Findings

| source | as written | input that shows it | evidently intended | confidence | as-written member | corrected member |
|---|---|---|---|---|---|---|
| lambda/incident_response.py:80-82 | `DDB` is a DynamoDB resource `Table`, which returns the number `last_ts` as a `decimal.Decimal`; `time.time() - last_ts` then raises `TypeError`, and line 134 calls the gate outside any `try`, so the handler raises | an instance with signals whose item exists, e.g. `last_ts` 1000, `COOLDOWN` 900, the check at 1060 | compare the elapsed time numerically and refuse within the cooldown, as the docstring of line 77 says | not executed; it rests on the resource API's number type | `Dedup.AsWrittenRepeatRaises` | `Dedup.RepeatWithinCooldownRefused` |

## Left out

- boto3 and `urllib` calls are inputs of the model (an `Answer` per call, a delivery flag per Telegram post). Timeouts, retries, the HTTP request body and the `REGION` setting are not modelled.
- `_avg_stats` is not modelled. Its datapoint query, sorting and float averaging become an `Option<real>` reading. Readings are exact reals, with no float rounding.
- Message wording is not modelled: the `:.1f` formatting of signals, the emoji, the joined snapshot list and the exception text in error messages. Messages are datatype values.
- Environment parsing (lines 28-48) is not modelled. The thresholds, `COOLDOWN`, and the table, Telegram, snapshot and playbook switches form a `Config` value. An unset `INSTANCE_IDS` is the empty string.
- The three `time.time()` calls of one evaluation (lines 82, 84, 138) are one integer `now` per instance. The snapshot description's `datetime.utcnow()` is not modelled.
- A DynamoDB `get_item` or `put_item` that raises is not modelled, and the table is taken to answer every read. An item without `last_ts` is not modelled either.
- Every lemma about `Gate` with a state table (`Dedup.GateFrame`, `Dedup.RepeatWithinCooldownRefused`, `Dedup.RepeatAfterCooldownAllowed`, `Dedup.TableCoversAllowed`, `Dedup.AllowedAlertsSpaced`, `Dedup.CooldownGate.Allow`), and through it `Handler.NoRepeatWithinCooldown`, `Handler.QuietPass`, `Handler.RerunWithinCooldownSilent` and the rest of the handler, states the behaviour of the corrected `Gate`, which reads `last_ts` as a number. As written, the gate raises for every instance that has an item (`Dedup.GateAsWritten`, see "## Findings"), so the code never refuses an alert because of the cooldown; it raises out of the handler instead.
- Concurrent invocations and the atomicity of the read-then-write in `_dedup_ok` are not modelled.
- `str.isspace()` is a fixed set of the 29 characters Python treats as white space.
- The return value's JSON shape is not modelled: records are datatype values, and an exception leaving the handler is the response `HandlerRaised`.

=== FILE: classifier.dfy ===
/** The threshold classifier of `lambda_handler`: three optional readings
    become an ordered list of breach signals. */
module Classifier {
  import opened Wrappers

  /** The metrics read per instance, in the order they are checked. */
  datatype Metric = Cpu | Mem | Disk

  /** Position of a metric in the fixed order CPU, MEM, DISK. */
  function Rank(m: Metric): nat {
    match m
    case Cpu => 0
    case Mem => 1
    case Disk => 2
  }

  /** `CPU_HIGH`, `MEM_HIGH` and `DISK_HIGH`. */
  datatype Thresholds = Thresholds(cpu: real, mem: real, disk: real) {
    function Of(m: Metric): real {
      match m
      case Cpu => cpu
      case Mem => mem
      case Disk => disk
    }
  }

  /** The defaults used when the settings are absent (lines 42-44). */
  const DefaultThresholds := Thresholds(80.0, 85.0, 85.0)

  /** The averages over the last five minutes; `None` when the window has no
      data point. */
  datatype Readings = Readings(cpu: Option<real>, mem: Option<real>, disk: Option<real>) {
    function Of(m: Metric): Option<real> {
      match m
      case Cpu => cpu
      case Mem => mem
      case Disk => disk
    }
  }

  /** One breach: the metric, the value read and the threshold it exceeded.
      The source formats these three into a string. */
  datatype Signal = Signal(metric: Metric, value: real, threshold: real)

  /** A reading breaches its threshold when it is present and strictly above it. */
  predicate Breaches(reading: Option<real>, threshold: real) {
    reading.Some? && reading.value > threshold
  }

  function SignalFor(readings: Readings, thresholds: Thresholds, m: Metric): seq<Signal> {
    if Breaches(readings.Of(m), thresholds.Of(m))
    then [Signal(m, readings.Of(m).value, thresholds.Of(m))]
    else []
  }

  /** Lines 126-129: every signal is for a metric whose reading is present
      and strictly above its threshold, and carries that reading and
      threshold; signals come in the order CPU, MEM, DISK, with no metric
      twice (see `ClassifyComplete` for the converse). */
  function Classify(readings: Readings, thresholds: Thresholds): (signals: seq<Signal>)
    ensures |signals| <= 3
    ensures forall i :: 0 <= i < |signals| ==>
      && Breaches(readings.Of(signals[i].metric), thresholds.Of(signals[i].metric))
      && readings.Of(signals[i].metric) == Some(signals[i].value)
      && signals[i].threshold == thresholds.Of(signals[i].metric)
    ensures forall i, j :: 0 <= i < j < |signals| ==> Rank(signals[i].metric) < Rank(signals[j].metric)
  {
    SignalFor(readings, thresholds, Cpu)
      + SignalFor(readings, thresholds, Mem)
      + SignalFor(readings, thresholds, Disk)
  }

  /** Every metric whose reading breaches its threshold has a signal. */
  lemma ClassifyComplete(readings: Readings, thresholds: Thresholds, m: Metric)
    requires Breaches(readings.Of(m), thresholds.Of(m))
    ensures exists i :: 0 <= i < |Classify(readings, thresholds)| && Classify(readings, thresholds)[i].metric == m
  {
    var cpu := SignalFor(readings, thresholds, Cpu);
    var mem := SignalFor(readings, thresholds, Mem);
    var signals := Classify(readings, thresholds);
    match m
    case Cpu => assert signals[0].metric == m;
    case Mem => assert signals[|cpu|].metric == m;
    case Disk => assert signals[|cpu| + |mem|].metric == m;
  }

  /** A reading equal to its threshold, or below it, or absent, gives no signal. */
  lemma NoBreachAtOrBelow(readings: Readings, thresholds: Thresholds)
    requires forall m: Metric :: readings.Of(m).Some? ==> readings.Of(m).value <= thresholds.Of(m)
    ensures Classify(readings, thresholds) == []
  {
  }

  /** With every reading absent there is no signal. */
  lemma AbsentReadingsNoSignal(thresholds: Thresholds)
    ensures Classify(Readings(None, None, None), thresholds) == []
  {
  }

  /** One breaching CPU reading with memory and disk absent gives exactly one
      CPU signal. */
  lemma SingleCpuBreach()
    ensures Classify(Readings(Some(92.0), None, None), DefaultThresholds)
      == [Signal(Cpu, 92.0, 80.0)]
  {
  }
}

=== FILE: dedup.dfy ===
/** The dedup/cooldown gate `_dedup_ok` over the state table, which maps an
    instance id to the time of its last allowed alert. */
module Dedup {
  import opened Wrappers

  /** `COOLDOWN_SEC` when the setting is absent (line 45). */
  const DefaultCooldown := 900

  /** The last alert time on record; an instance with no item counts as 0 (line 81). */
  function LastAlert(table: map<string, int>, iid: string): int {
    if iid in table then table[iid] else 0
  }

  /** The gate's answer and the table it leaves behind. */
  datatype Decision = Decision(allowed: bool, table: map<string, int>)

  /** Lines 76-85. With no table the gate always allows. With one, it refuses
      while `now - last_ts < COOLDOWN`, and otherwise records `now` for the
      instance and allows. */
  function Gate(enabled: bool, cooldown: int, table: map<string, int>, iid: string, now: int): Decision {
    if !enabled then Decision(true, table)
    else if now - LastAlert(table, iid) < cooldown then Decision(false, table)
    else Decision(true, table[iid := now])
  }

  /** With no table every call is allowed and nothing is written. */
  lemma DisabledGateAllows(cooldown: int, table: map<string, int>, iid: string, now: int)
    ensures Gate(false, cooldown, table, iid, now) == Decision(true, table)
  {
  }

  /** A refusal leaves the table as it was; an allowed call writes `now` for
      this instance and leaves every other instance's entry alone. */
  lemma GateFrame(cooldown: int, table: map<string, int>, iid: string, now: int)
    ensures var d := Gate(true, cooldown, table, iid, now);
      && (d.allowed <==> now - LastAlert(table, iid) >= cooldown)
      && (!d.allowed ==> d.table == table)
      && (d.allowed ==> iid in d.table && d.table[iid] == now)
      && (forall k :: k != iid ==> LastAlert(d.table, k) == LastAlert(table, k))
  {
  }

  /** A second call within `COOLDOWN` of an allowed call is refused. */
  lemma RepeatWithinCooldownRefused(cooldown: int, table: map<string, int>, iid: string, t1: int, t2: int)
    requires Gate(true, cooldown, table, iid, t1).allowed
    requires t2 - t1 < cooldown
    ensures !Gate(true, cooldown, Gate(true, cooldown, table, iid, t1).table, iid, t2).allowed
  {
  }

  /** A second call `COOLDOWN` or more after an allowed call is allowed. */
  lemma RepeatAfterCooldownAllowed(cooldown: int, table: map<string, int>, iid: string, t1: int, t2: int)
    requires Gate(true, cooldown, table, iid, t1).allowed
    requires t2 - t1 >= cooldown
    ensures Gate(true, cooldown, Gate(true, cooldown, table, iid, t1).table, iid, t2).allowed
  {
  }

  /** `_dedup_ok` as written, against the DynamoDB resource API, which
      returns a number attribute as a `decimal.Decimal`. For an instance
      that has an item, `time.time() - last_ts` (line 82) subtracts a
      `Decimal` from a float, which raises `TypeError`; only a missing item,
      read as the integer 0, gets through to the comparison. */
  function GateAsWritten(enabled: bool, cooldown: int, table: map<string, int>, iid: string, now: int): Answer<Decision> {
    if enabled && iid in table then Raised
    else Returned(Gate(enabled, cooldown, table, iid, now))
  }

  /** As written, the call after an allowed one always raises, however soon
      or late it comes: the cooldown never suppresses a repeat. */
  lemma AsWrittenRepeatRaises(cooldown: int, table: map<string, int>, iid: string, t1: int, t2: int)
    requires Gate(true, cooldown, table, iid, t1).allowed
    ensures GateAsWritten(true, cooldown, Gate(true, cooldown, table, iid, t1).table, iid, t2) == Raised
  {
  }

  /** As written, once the clock is past `COOLDOWN` the gate never refuses:
      it allows an instance without an item, and raises for one with it. */
  lemma AsWrittenNeverRefuses(cooldown: int, table: map<string, int>, iid: string, now: int)
    requires now >= cooldown
    ensures GateAsWritten(true, cooldown, table, iid, now).Returned? ==>
      GateAsWritten(true, cooldown, table, iid, now).value.allowed
  {
  }

  /** With the default cooldown, an item written at 1000 and a check at
      1060: the intended gate refuses, and the code as written raises. */
  lemma DecimalItemScenario()
    ensures !Gate(true, DefaultCooldown, map["i-1" := 1000], "i-1", 1060).allowed
    ensures GateAsWritten(true, DefaultCooldown, map["i-1" := 1000], "i-1", 1060) == Raised
  {
  }

  /** One call of the gate: which instance, and when. */
  datatype Call = Call(iid: string, now: int)

  /** The answers of the gate to a series of calls, and the final table. */
  datatype Replayed = Replayed(answers: seq<bool>, table: map<string, int>)

  function Replay(enabled: bool, cooldown: int, table: map<string, int>, calls: seq<Call>): (r: Replayed)
    ensures |r.answers| == |calls|
    decreases |calls|
  {
    if calls == [] then Replayed([], table)
    else
      var before := Replay(enabled, cooldown, table, calls[..|calls| - 1]);
      var last := calls[|calls| - 1];
      var d := Gate(enabled, cooldown, before.table, last.iid, last.now);
      Replayed(before.answers + [d.allowed], d.table)
  }

  /** With no table the gate never suppresses, however often it is called. */
  lemma {:induction false} DisabledReplayAllowsAll(cooldown: int, table: map<string, int>, calls: seq<Call>)
    ensures var r := Replay(false, cooldown, table, calls);
      (forall i :: 0 <= i < |calls| ==> r.answers[i]) && r.table == table
    decreases |calls|
  {
    if calls != [] {
      DisabledReplayAllowsAll(cooldown, table, calls[..|calls| - 1]);
    }
  }

  predicate NonDecreasing(calls: seq<Call>) {
    forall i, j :: 0 <= i < j < |calls| ==> calls[i].now <= calls[j].now
  }

  /** After a series of calls in time order, every allowed call's time is at
      most what the table holds for its instance. */
  lemma {:induction false} TableCoversAllowed(cooldown: int, table: map<string, int>, calls: seq<Call>)
    requires NonDecreasing(calls)
    ensures var r := Replay(true, cooldown, table, calls);
      forall i :: 0 <= i < |calls| && r.answers[i] ==>
        calls[i].iid in r.table && calls[i].now <= r.table[calls[i].iid]
    decreases |calls|
  {
    if calls != [] {
      var n := |calls| - 1;
      var prefix := calls[..n];
      TableCoversAllowed(cooldown, table, prefix);
      var before := Replay(true, cooldown, table, prefix);
      var r := Replay(true, cooldown, table, calls);
      forall i | 0 <= i < |calls| && r.answers[i]
        ensures calls[i].iid in r.table && calls[i].now <= r.table[calls[i].iid]
      {
        if i < n {
          assert prefix[i] == calls[i];
          assert before.answers[i];
        }
      }
    }
  }

  /** For calls in time order, two allowed alerts for the same instance are
      at least `COOLDOWN` apart: the gate lets through at most one alert per
      instance per cooldown window. */
  lemma {:induction false} AllowedAlertsSpaced(cooldown: int, table: map<string, int>, calls: seq<Call>)
    requires NonDecreasing(calls)
    ensures var r := Replay(true, cooldown, table, calls);
      forall i, j :: 0 <= i < j < |calls| && calls[i].iid == calls[j].iid && r.answers[i] && r.answers[j] ==>
        calls[j].now - calls[i].now >= cooldown
    decreases |calls|
  {
    if calls != [] {
      var n := |calls| - 1;
      var prefix := calls[..n];
      AllowedAlertsSpaced(cooldown, table, prefix);
      TableCoversAllowed(cooldown, table, prefix);
      var before := Replay(true, cooldown, table, prefix);
      var r := Replay(true, cooldown, table, calls);
      forall i, j | 0 <= i < j < |calls| && calls[i].iid == calls[j].iid && r.answers[i] && r.answers[j]
        ensures calls[j].now - calls[i].now >= cooldown
      {
        assert prefix[i] == calls[i] && before.answers[i];
        if j < n {
          assert prefix[j] == calls[j] && before.answers[j];
        }
      }
    }
  }

  /** The DynamoDB state table of `_dedup_ok`. `enabled` is whether
      `STATE_TABLE` is set; `lastAlert` is the table's content. */
  class CooldownGate {
    const enabled: bool
    const cooldown: int
    var lastAlert: map<string, int>

    constructor (enabled: bool, cooldown: int, lastAlert: map<string, int>)
      ensures this.enabled == enabled && this.cooldown == cooldown
      ensures this.lastAlert == lastAlert
    {
      this.enabled := enabled;
      this.cooldown := cooldown;
      this.lastAlert := lastAlert;
    }

    /** `_dedup_ok(iid)` at time `now`: reads the item, and writes `now` back
        only when it allows. */
    method Allow(iid: string, now: int) returns (ok: bool)
      modifies this
      ensures Decision(ok, lastAlert) == Gate(enabled, cooldown, old(lastAlert), iid, now)
    {
      if !enabled {
        return true;
      }
      var lastTs := if iid in lastAlert then lastAlert[iid] else 0;
      if now - lastTs < cooldown {
        return false;
      }
      lastAlert := lastAlert[iid := now];
      return true;
    }
  }
}

=== FILE: effects.dfy ===
/** What the detector does to the outside world, as one ordered log: Telegram
    messages, EBS snapshots and their tags, and Step Functions executions. */
module Effects {
  import opened Classifier

  /** `f"{iid}-{int(time.time())}"` (line 138), kept as its two parts. */
  datatype IncidentId = IncidentId(instance: string, timestamp: int)

  /** The Telegram messages of the handler; their wording and the exception
      text of the error messages are not modelled. */
  datatype Message =
    | NoInstancesConfigured                                                   // line 116
    | IncidentDetected(instance: string, incident: IncidentId, signals: seq<Signal>)  // lines 139-145
    | SnapshotsTaken(instance: string, snapshots: seq<string>)               // line 152
    | SnapshotError(instance: string)                                        // line 154
    | PlaybookRunning                                                        // line 168
    | PlaybookError                                                          // line 170

  datatype Tag = Tag(key: string, value: string)

  /** The input of the playbook execution (lines 161-166). */
  datatype Payload = Payload(incident: IncidentId, instance: string, signals: seq<Signal>, snapshots: seq<string>)

  /** One entry of the log. `Notified` records a Telegram post that was
      attempted, whether or not it was delivered (a failed post makes
      `_telegram` raise). The other entries record only calls that returned:
      a `create_snapshot`, `create_tags` or `start_execution` that raises
      leaves no entry. */
  datatype Event =
    | Notified(message: Message)
    | SnapshotCreated(volume: string, snapshot: string, instance: string)
    | SnapshotTagged(snapshot: string, tags: seq<Tag>)
    | ExecutionStarted(payload: Payload)

  /** The log of everything sent to or created in the outside world. */
  class Outbox {
    var events: seq<Event>

    constructor ()
      ensures events == []
    {
      events := [];
    }
  }

  /** What one `_telegram` call leaves behind: the events it adds, and whether
      it raised. */
  datatype Sent = Sent(emitted: seq<Event>, raised: bool)

  /** Lines 50-56: without both the bot token and the channel id nothing is
      sent and nothing can fail; otherwise the message is posted, and the call
      raises when the request does not go through (`delivered` is false). */
  function Send(configured: bool, msg: Message, delivered: bool): Sent {
    if !configured then Sent([], false)
    else Sent([Notified(msg)], !delivered)
  }

  /** Without credentials `_telegram` never posts and never raises; with them
      it posts exactly the one message. */
  lemma SendGuard(configured: bool, msg: Message, delivered: bool)
    ensures !configured ==> Send(configured, msg, delivered) == Sent([], false)
    ensures configured ==> Send(configured, msg, delivered).emitted == [Notified(msg)]
    ensures Send(configured, msg, delivered).raised ==> configured && !delivered
  {
  }

  /** `_telegram(text)`. */
  method Telegram(out: Outbox, configured: bool, msg: Message, delivered: bool) returns (raised: bool)
    modifies out
    ensures out.events == old(out.events) + Send(configured, msg, delivered).emitted
    ensures raised == Send(configured, msg, delivered).raised
  {
    if !configured {
      return false;
    }
    out.events := out.events + [Notified(msg)];
    raised := !delivered;
  }
}

=== FILE: handler.dfy ===
/** `lambda_handler`: parse the instance list, then for each instance read
    the metrics, classify, pass the cooldown gate, alert, and optionally
    snapshot and start the playbook, collecting one record per alert. */
module Handler {
  import opened Wrappers
  import opened InstanceIds
  import opened Classifier
  import opened Dedup
  import opened Effects
  import opened Snapshots

  /** The settings read once from the environment (lines 36-48). */
  datatype Config = Config(
    thresholds: Thresholds,
    cooldown: int,
    dedupEnabled: bool,        // STATE_TABLE is set
    telegramConfigured: bool,  // TELEGRAM_BOT_TOKEN and TELEGRAM_CHANNEL_ID are both set
    snapshotOnAlert: bool,     // SNAPSHOT_ON_ALERT is "true"
    playbookConfigured: bool)  // PLAYBOOK_ARN is set

  /** What the outside world answers while one instance is evaluated: the
      three metric fetches, the clock, EC2's answers to the snapshot calls,
      whether `start_execution` returns, and whether each Telegram post goes
      through. */
  datatype Observation = Observation(
    cpu: Answer<Option<real>>,
    mem: Answer<Option<real>>,
    disk: Answer<Option<real>>,
    now: int,
    describe: Answer<Description>,
    snapshotCall: nat -> SnapshotCall,
    playbookStarts: bool,
    delivered: Message -> bool)

  /** The three fetches of lines 122-124 returned (none raised). */
  predicate Fetched(obs: Observation) {
    obs.cpu.Returned? && obs.mem.Returned? && obs.disk.Returned?
  }

  function ReadingsOf(obs: Observation): Readings
    requires Fetched(obs)
  {
    Readings(obs.cpu.value, obs.mem.value, obs.disk.value)
  }

  /** `{"instance": iid, "signals": signals, "snapshots": snaps}` (line 172). */
  datatype Record = Record(instance: string, signals: seq<Signal>, snapshots: seq<string>)

  /** How the evaluation of one instance ended: skipped (`continue`), with a
      record, or with an exception that leaves `lambda_handler`. */
  datatype Status = Skipped | Recorded(record: Record) | Aborted

  /** The status of one instance, the state table after it, and the events
      it added. */
  datatype Step = Step(status: Status, table: map<string, int>, emitted: seq<Event>)

  /** `_telegram(msg)` with this instance's delivery answer. */
  function Notify(cfg: Config, obs: Observation, msg: Message): Sent {
    Send(cfg.telegramConfigured, msg, obs.delivered(msg))
  }

  /** `snaps` after lines 148-154, the events of that block, and whether an
      exception left it. */
  datatype Forensics = Forensics(snapshots: seq<string>, emitted: seq<Event>, raised: bool)

  /** Lines 148-154. The capture and its report share one `try`; the error
      report in the `except` has none. */
  function SnapshotPart(cfg: Config, iid: string, obs: Observation): Forensics {
    if !cfg.snapshotOnAlert then Forensics([], [], false)
    else
      var c := Capture(iid, obs.describe, obs.snapshotCall);
      match c.result
      case Returned(snaps) =>
        var note := Notify(cfg, obs, SnapshotsTaken(iid, snaps));
        if !note.raised then Forensics(snaps, c.emitted + note.emitted, false)
        else
          var err := Notify(cfg, obs, SnapshotError(iid));
          Forensics(snaps, c.emitted + note.emitted + err.emitted, err.raised)
      case Raised =>
        var err := Notify(cfg, obs, SnapshotError(iid));
        Forensics([], c.emitted + err.emitted, err.raised)
  }

  /** Lines 157-170. The start and its report share one `try`; the error
      report in the `except` has none. */
  function PlaybookPart(cfg: Config, obs: Observation, payload: Payload): Sent {
    if !cfg.playbookConfigured then Sent([], false)
    else if obs.playbookStarts then
      var note := Notify(cfg, obs, PlaybookRunning);
      if !note.raised then Sent([ExecutionStarted(payload)] + note.emitted, false)
      else
        var err := Notify(cfg, obs, PlaybookError);
        Sent([ExecutionStarted(payload)] + note.emitted + err.emitted, err.raised)
    else
      var err := Notify(cfg, obs, PlaybookError);
      Sent(err.emitted, err.raised)
  }

  /** How the steps after the gate ended, and the events they added. */
  datatype Reaction = Reaction(status: Status, emitted: seq<Event>)

  /** Lines 147-172: forensics, then the playbook, then the record, for an
      instance whose alert went out. */
  function FollowUp(cfg: Config, iid: string, obs: Observation, signals: seq<Signal>): Reaction {
    var snap := SnapshotPart(cfg, iid, obs);
    if snap.raised then Reaction(Aborted, snap.emitted)
    else
      var play := PlaybookPart(cfg, obs, Payload(IncidentId(iid, obs.now), iid, signals, snap.snapshots));
      if play.raised then Reaction(Aborted, snap.emitted + play.emitted)
      else Reaction(Recorded(Record(iid, signals, snap.snapshots)), snap.emitted + play.emitted)
  }

  /** Lines 137-172: the alert, then the follow-up, for an instance whose
      signals passed the gate at `obs.now`. */
  function React(cfg: Config, iid: string, obs: Observation, signals: seq<Signal>): Reaction {
    var alert := Notify(cfg, obs, IncidentDetected(iid, IncidentId(iid, obs.now), signals));
    if alert.raised then Reaction(Aborted, alert.emitted)
    else
      var f := FollowUp(cfg, iid, obs, signals);
      Reaction(f.status, alert.emitted + f.emitted)
  }

  /** Lines 122-172: the evaluation of one instance against the state table. */
  function Evaluate(cfg: Config, iid: string, obs: Observation, table: map<string, int>): Step {
    if !Fetched(obs) then Step(Aborted, table, [])
    else
      var signals := Classify(ReadingsOf(obs), cfg.thresholds);
      if signals == [] then Step(Skipped, table, [])
      else
        var d := Gate(cfg.dedupEnabled, cfg.cooldown, table, iid, obs.now);
        if !d.allowed then Step(Skipped, d.table, [])
        else
          var r := React(cfg, iid, obs, signals);
          Step(r.status, d.table, r.emitted)
  }

  /** The records of a pass so far, whether an exception ended it, the state
      table and the events. */
  datatype Pass = Pass(records: seq<Record>, aborted: bool, table: map<string, int>, emitted: seq<Event>)

  /** The pass after one more instance: its record, if any, is appended,
      and an exception ends the pass. */
  function Extend(p: Pass, s: Step): Pass {
    Pass(p.records + (if s.status.Recorded? then [s.status.record] else []),
         s.status.Aborted?,
         s.table,
         p.emitted + s.emitted)
  }

  /** Lines 120-172: the loop over the ids; `world(k)` answers for the k-th. */
  function Run(cfg: Config, ids: seq<string>, world: nat -> Observation, table: map<string, int>): Pass
    decreases |ids|
  {
    if ids == [] then Pass([], false, table, [])
    else
      var n := |ids| - 1;
      var p := Run(cfg, ids[..n], world, table);
      if p.aborted then p
      else Extend(p, Evaluate(cfg, ids[n], world(n), p.table))
  }

  /** What `lambda_handler` returns: `{"error": "no instances"}`,
      `{"incidents": [...]}`, or nothing because an exception escaped. */
  datatype Response = NoInstances | Incidents(records: seq<Record>) | HandlerRaised

  datatype Outcome = Outcome(response: Response, table: map<string, int>, emitted: seq<Event>)

  /** Lines 113-174. `warningDelivered` answers the post of line 116. */
  function Handle(cfg: Config, raw: string, warningDelivered: bool, world: nat -> Observation,
                  table: map<string, int>): Outcome
  {
    if Strip(raw) == "" then
      var warn := Send(cfg.telegramConfigured, NoInstancesConfigured, warningDelivered);
      Outcome(if warn.raised then HandlerRaised else NoInstances, table, warn.emitted)
    else
      var p := Run(cfg, ParseIds(raw), world, table);
      Outcome(if p.aborted then HandlerRaised else Incidents(p.records), p.table, p.emitted)
  }

  // ---------------------------------------------------------------------------
  // The code, step by step

  /** Lines 148-154. */
  method CaptureForensics(cfg: Config, iid: string, obs: Observation, out: Outbox)
    returns (snaps: seq<string>, raised: bool)
    modifies out
    ensures snaps == SnapshotPart(cfg, iid, obs).snapshots
    ensures raised == SnapshotPart(cfg, iid, obs).raised
    ensures out.events == old(out.events) + SnapshotPart(cfg, iid, obs).emitted
  {
    snaps, raised := [], false;
    if cfg.snapshotOnAlert {
      var captured := SnapshotsForInstance(out, iid, obs.describe, obs.snapshotCall);
      if captured.Returned? {
        snaps := captured.value;
        var msg := SnapshotsTaken(iid, snaps);
        var noteRaised := Telegram(out, cfg.telegramConfigured, msg, obs.delivered(msg));
        if noteRaised {
          raised := Telegram(out, cfg.telegramConfigured, SnapshotError(iid), obs.delivered(SnapshotError(iid)));
        }
      } else {
        raised := Telegram(out, cfg.telegramConfigured, SnapshotError(iid), obs.delivered(SnapshotError(iid)));
      }
    }
  }

  /** Lines 157-170. */
  method StartPlaybook(cfg: Config, obs: Observation, payload: Payload, out: Outbox) returns (raised: bool)
    modifies out
    ensures raised == PlaybookPart(cfg, obs, payload).raised
    ensures out.events == old(out.events) + PlaybookPart(cfg, obs, payload).emitted
  {
    raised := false;
    if cfg.playbookConfigured {
      if obs.playbookStarts {
        out.events := out.events + [ExecutionStarted(payload)];
        var noteRaised := Telegram(out, cfg.telegramConfigured, PlaybookRunning, obs.delivered(PlaybookRunning));
        if noteRaised {
          raised := Telegram(out, cfg.telegramConfigured, PlaybookError, obs.delivered(PlaybookError));
        }
      } else {
        raised := Telegram(out, cfg.telegramConfigured, PlaybookError, obs.delivered(PlaybookError));
      }
    }
  }

  /** Lines 147-172. */
  method FollowUpIncident(cfg: Config, iid: string, obs: Observation, signals: seq<Signal>, out: Outbox)
    returns (status: Status)
    modifies out
    ensures status == FollowUp(cfg, iid, obs, signals).status
    ensures out.events == old(out.events) + FollowUp(cfg, iid, obs, signals).emitted
  {
    var snaps, snapRaised := CaptureForensics(cfg, iid, obs, out);
    if snapRaised {
      return Aborted;
    }
    var playRaised := StartPlaybook(cfg, obs, Payload(IncidentId(iid, obs.now), iid, signals, snaps), out);
    if playRaised {
      return Aborted;
    }
    return Recorded(Record(iid, signals, snaps));
  }

  /** Lines 137-172. */
  method Respond(cfg: Config, iid: string, obs: Observation, signals: seq<Signal>, out: Outbox)
    returns (status: Status)
    modifies out
    ensures status == React(cfg, iid, obs, signals).status
    ensures out.events == old(out.events) + React(cfg, iid, obs, signals).emitted
  {
    var msg := IncidentDetected(iid, IncidentId(iid, obs.now), signals);
    var alertRaised := Telegram(out, cfg.telegramConfigured, msg, obs.delivered(msg));
    if alertRaised {
      return Aborted;
    }
    status := FollowUpIncident(cfg, iid, obs, signals, out);
  }

  /** Lines 122-172, the body of the loop. */
  method EvaluateInstance(cfg: Config, iid: string, obs: Observation, gate: CooldownGate, out: Outbox)
    returns (status: Status)
    requires gate.enabled == cfg.dedupEnabled && gate.cooldown == cfg.cooldown
    modifies gate, out
    ensures status == Evaluate(cfg, iid, obs, old(gate.lastAlert)).status
    ensures gate.lastAlert == Evaluate(cfg, iid, obs, old(gate.lastAlert)).table
    ensures out.events == old(out.events) + Evaluate(cfg, iid, obs, old(gate.lastAlert)).emitted
  {
    if obs.cpu.Raised? || obs.mem.Raised? || obs.disk.Raised? {
      return Aborted;
    }
    var cpu, mem, disk := obs.cpu.value, obs.mem.value, obs.disk.value;
    var signals := Classify(Readings(cpu, mem, disk), cfg.thresholds);
    if signals == [] {
      return Skipped;
    }
    var ok := gate.Allow(iid, obs.now);
    if !ok {
      return Skipped;
    }
    status := Respond(cfg, iid, obs, signals, out);
  }

  /** Once an instance has raised, the rest of the list is never evaluated. */
  lemma {:induction false} AbortStops(cfg: Config, ids: seq<string>, world: nat -> Observation,
                                      table: map<string, int>, n: nat)
    requires n <= |ids|
    requires Run(cfg, ids[..n], world, table).aborted
    ensures Run(cfg, ids, world, table) == Run(cfg, ids[..n], world, table)
    decreases |ids| - n
  {
    if n < |ids| {
      var m := |ids| - 1;
      assert ids[..m][..n] == ids[..n];
      AbortStops(cfg, ids[..m], world, table, n);
    } else {
      assert ids[..n] == ids;
    }
  }

  /** One more id extends the pass by the evaluation of that id. */
  lemma RunStep(cfg: Config, ids: seq<string>, world: nat -> Observation, table: map<string, int>, i: nat)
    requires i < |ids|
    requires !Run(cfg, ids[..i], world, table).aborted
    ensures var before := Run(cfg, ids[..i], world, table);
      Run(cfg, ids[..i + 1], world, table) == Extend(before, Evaluate(cfg, ids[i], world(i), before.table))
  {
    assert ids[..i + 1][..i] == ids[..i];
  }

  /** One turn of the loop of lines 120-172: evaluate the `i`-th id and
      extend the pass so far by its step. */
  method Advance(cfg: Config, ids: seq<string>, world: nat -> Observation, i: nat,
                 ghost before: Pass, ghost events0: seq<Event>, gate: CooldownGate, out: Outbox)
    returns (status: Status)
    requires i < |ids|
    requires gate.enabled == cfg.dedupEnabled && gate.cooldown == cfg.cooldown
    requires gate.lastAlert == before.table
    requires out.events == events0 + before.emitted
    modifies gate, out
    ensures var after := Extend(before, Evaluate(cfg, ids[i], world(i), before.table));
      status.Aborted? == after.aborted
    ensures var after := Extend(before, Evaluate(cfg, ids[i], world(i), before.table));
      after.records == before.records + (if status.Recorded? then [status.record] else [])
    ensures gate.lastAlert == Extend(before, Evaluate(cfg, ids[i], world(i), before.table)).table
    ensures out.events == events0 + Extend(before, Evaluate(cfg, ids[i], world(i), before.table)).emitted
  {
    ghost var step := Evaluate(cfg, ids[i], world(i), before.table);
    status := EvaluateInstance(cfg, ids[i], world(i), gate, out);
    assert status == step.status && gate.lastAlert == step.table;
    assert out.events == events0 + (before.emitted + step.emitted);
  }

  /** Lines 120-172, the loop over the ids. */
  method Sweep(cfg: Config, ids: seq<string>, world: nat -> Observation, gate: CooldownGate, out: Outbox)
    returns (aborted: bool, incidents: seq<Record>)
    requires gate.enabled == cfg.dedupEnabled && gate.cooldown == cfg.cooldown
    modifies gate, out
    ensures aborted == Run(cfg, ids, world, old(gate.lastAlert)).aborted
    ensures !aborted ==> incidents == Run(cfg, ids, world, old(gate.lastAlert)).records
    ensures gate.lastAlert == Run(cfg, ids, world, old(gate.lastAlert)).table
    ensures out.events == old(out.events) + Run(cfg, ids, world, old(gate.lastAlert)).emitted
  {
    ghost var table0, events0 := gate.lastAlert, out.events;
    incidents := [];
    for i := 0 to |ids|
      invariant !Run(cfg, ids[..i], world, table0).aborted
      invariant incidents == Run(cfg, ids[..i], world, table0).records
      invariant gate.lastAlert == Run(cfg, ids[..i], world, table0).table
      invariant out.events == events0 + Run(cfg, ids[..i], world, table0).emitted
    {
      RunStep(cfg, ids, world, table0, i);
      var status := Advance(cfg, ids, world, i, Run(cfg, ids[..i], world, table0), events0, gate, out);
      if status.Aborted? {
        AbortStops(cfg, ids, world, table0, i + 1);
        return true, incidents;
      }
      if status.Recorded? {
        incidents := incidents + [status.record];
      }
    }
    assert ids[..|ids|] == ids;
    return false, incidents;
  }

  /** Lines 113-174. */
  method LambdaHandler(cfg: Config, raw: string, warningDelivered: bool, world: nat -> Observation,
                       gate: CooldownGate, out: Outbox)
    returns (response: Response)
    requires gate.enabled == cfg.dedupEnabled && gate.cooldown == cfg.cooldown
    modifies gate, out
    ensures response == Handle(cfg, raw, warningDelivered, world, old(gate.lastAlert)).response
    ensures gate.lastAlert == Handle(cfg, raw, warningDelivered, world, old(gate.lastAlert)).table
    ensures out.events == old(out.events) + Handle(cfg, raw, warningDelivered, world, old(gate.lastAlert)).emitted
  {
    var instancesRaw := Strip(raw);
    if instancesRaw == "" {
      var raised := Telegram(out, cfg.telegramConfigured, NoInstancesConfigured, warningDelivered);
      return if raised then HandlerRaised else NoInstances;
    }
    var ids := Keep(Split(instancesRaw));
    assert ids == ParseIds(raw);
    var aborted, incidents := Sweep(cfg, ids, world, gate, out);
    return if aborted then HandlerRaised else Incidents(incidents);
  }

  // ---------------------------------------------------------------------------
  // Properties of one instance

  /** `snaps` as lines 148-151 leave it: the capture's ids when snapshots are
      on and `_snapshots_for_instance` returned, and `[]` otherwise. */
  function CapturedSnapshots(cfg: Config, iid: string, obs: Observation): seq<string> {
    var c := Capture(iid, obs.describe, obs.snapshotCall);
    if cfg.snapshotOnAlert && c.result.Returned? then c.result.value else []
  }

  /** The alert of line 145 for an instance that passed the gate. */
  function AlertOf(cfg: Config, iid: string, obs: Observation): Message
    requires Fetched(obs)
  {
    IncidentDetected(iid, IncidentId(iid, obs.now), Classify(ReadingsOf(obs), cfg.thresholds))
  }

  /** An instance without signals never reaches the gate: the table is
      neither read nor written, nothing is sent and no record is made. */
  lemma NoSignalsSkipped(cfg: Config, iid: string, obs: Observation, table: map<string, int>)
    requires Fetched(obs) && Classify(ReadingsOf(obs), cfg.thresholds) == []
    ensures Evaluate(cfg, iid, obs, table) == Step(Skipped, table, [])
  {
  }

  /** An instance the gate refuses is skipped without a trace. */
  lemma RefusedSkipped(cfg: Config, iid: string, obs: Observation, table: map<string, int>)
    requires Fetched(obs) && Classify(ReadingsOf(obs), cfg.thresholds) != []
    requires !Gate(cfg.dedupEnabled, cfg.cooldown, table, iid, obs.now).allowed
    ensures Evaluate(cfg, iid, obs, table) == Step(Skipped, table, [])
  {
  }

  /** Gate before alert: the table changes only through the gate, and only
      for an instance with signals; nothing is sent or created, and no
      record made, unless the gate allowed; and with Telegram configured the
      first thing sent is the incident alert. */
  lemma GateBeforeEffects(cfg: Config, iid: string, obs: Observation, table: map<string, int>)
    ensures var s := Evaluate(cfg, iid, obs, table);
      s.table == if Fetched(obs) && Classify(ReadingsOf(obs), cfg.thresholds) != []
                 then Gate(cfg.dedupEnabled, cfg.cooldown, table, iid, obs.now).table
                 else table
    ensures var s := Evaluate(cfg, iid, obs, table);
      (s.emitted != [] || s.status.Recorded?) ==>
        && Fetched(obs)
        && Classify(ReadingsOf(obs), cfg.thresholds) != []
        && Gate(cfg.dedupEnabled, cfg.cooldown, table, iid, obs.now).allowed
    ensures var s := Evaluate(cfg, iid, obs, table);
      s.emitted != [] && cfg.telegramConfigured ==>
        Fetched(obs) && s.emitted[0] == Notified(AlertOf(cfg, iid, obs))
  {
  }

  /** The snapshot step leaves `snaps` as the capture returned it, or empty. */
  lemma SnapshotPartSnapshots(cfg: Config, iid: string, obs: Observation)
    ensures SnapshotPart(cfg, iid, obs).snapshots == CapturedSnapshots(cfg, iid, obs)
  {
  }

  /** What a record holds: the instance, its signals (never none), and the
      snapshots the capture returned, which are none unless snapshots are on
      and the capture returned normally. */
  lemma RecordContents(cfg: Config, iid: string, obs: Observation, table: map<string, int>)
    requires Evaluate(cfg, iid, obs, table).status.Recorded?
    ensures Fetched(obs)
    ensures Classify(ReadingsOf(obs), cfg.thresholds) != []
    ensures Gate(cfg.dedupEnabled, cfg.cooldown, table, iid, obs.now).allowed
    ensures Evaluate(cfg, iid, obs, table).status.record
      == Record(iid, Classify(ReadingsOf(obs), cfg.thresholds), CapturedSnapshots(cfg, iid, obs))
  {
    SnapshotPartSnapshots(cfg, iid, obs);
  }

  /** A record is made for every instance that passes the gate, whatever the
      capture and the playbook do, as long as the alert and the two error
      reports, which sit outside any `try`, do not raise. */
  lemma RecordedDespiteSubstepFailures(cfg: Config, iid: string, obs: Observation, table: map<string, int>)
    requires Fetched(obs) && Classify(ReadingsOf(obs), cfg.thresholds) != []
    requires Gate(cfg.dedupEnabled, cfg.cooldown, table, iid, obs.now).allowed
    requires !Notify(cfg, obs, AlertOf(cfg, iid, obs)).raised
    requires !Notify(cfg, obs, SnapshotError(iid)).raised
    requires !Notify(cfg, obs, PlaybookError).raised
    ensures Evaluate(cfg, iid, obs, table).status
      == Recorded(Record(iid, Classify(ReadingsOf(obs), cfg.thresholds), CapturedSnapshots(cfg, iid, obs)))
    ensures Evaluate(cfg, iid, obs, table).table == Gate(cfg.dedupEnabled, cfg.cooldown, table, iid, obs.now).table
  {
    SnapshotPartSnapshots(cfg, iid, obs);
  }

  /** The forensics step starts no playbook. */
  lemma SnapshotPartStartsNothing(cfg: Config, iid: string, obs: Observation)
    ensures var e := SnapshotPart(cfg, iid, obs).emitted;
      forall k :: 0 <= k < |e| ==> !e[k].ExecutionStarted?
  {
    if cfg.snapshotOnAlert {
      var f := SnapshotPart(cfg, iid, obs);
      var c := Capture(iid, obs.describe, obs.snapshotCall);
      CaptureEvents(iid, obs.describe, obs.snapshotCall);
      var notes: seq<Event> :=
        match c.result
        case Returned(snaps) =>
          var note := Notify(cfg, obs, SnapshotsTaken(iid, snaps));
          if !note.raised then note.emitted else note.emitted + Notify(cfg, obs, SnapshotError(iid)).emitted
        case Raised => Notify(cfg, obs, SnapshotError(iid)).emitted;
      assert f.emitted == c.emitted + notes;
      assert forall k :: 0 <= k < |notes| ==> notes[k].Notified?;
    }
  }

  /** The follow-up of a recorded instance starts the playbook exactly when
      it is configured and `start_execution` returns, and only with the
      record's instance, signals and snapshots. */
  lemma FollowUpPayload(cfg: Config, iid: string, obs: Observation, signals: seq<Signal>)
    requires FollowUp(cfg, iid, obs, signals).status.Recorded?
    ensures var f := FollowUp(cfg, iid, obs, signals);
      var r := f.status.record;
      var payload := Payload(IncidentId(iid, obs.now), r.instance, r.signals, r.snapshots);
      && (forall k :: 0 <= k < |f.emitted| && f.emitted[k].ExecutionStarted? ==> f.emitted[k].payload == payload)
      && ((ExecutionStarted(payload) in f.emitted) <==> cfg.playbookConfigured && obs.playbookStarts)
  {
    var f := FollowUp(cfg, iid, obs, signals);
    var snap := SnapshotPart(cfg, iid, obs);
    var payload := Payload(IncidentId(iid, obs.now), iid, signals, snap.snapshots);
    var play := PlaybookPart(cfg, obs, payload);
    assert f.emitted == snap.emitted + play.emitted;
    assert f.status.record == Record(iid, signals, snap.snapshots);
    SnapshotPartStartsNothing(cfg, iid, obs);
    if cfg.playbookConfigured && obs.playbookStarts {
      assert play.emitted[0] == ExecutionStarted(payload);
      assert forall k :: 1 <= k < |play.emitted| ==> play.emitted[k].Notified?;
      assert f.emitted[|snap.emitted|] == ExecutionStarted(payload);
    } else {
      assert forall k :: 0 <= k < |play.emitted| ==> !play.emitted[k].ExecutionStarted?;
      assert forall k :: 0 <= k < |f.emitted| ==> !f.emitted[k].ExecutionStarted?;
    }
  }

  /** For a recorded instance the playbook is started exactly when it is
      configured and `start_execution` returns, and every execution started
      carries the record's instance, signals and snapshots and the alert's
      incident id. */
  lemma PayloadMatchesRecord(cfg: Config, iid: string, obs: Observation, table: map<string, int>)
    requires Evaluate(cfg, iid, obs, table).status.Recorded?
    ensures var s := Evaluate(cfg, iid, obs, table);
      var r := s.status.record;
      forall k :: 0 <= k < |s.emitted| && s.emitted[k].ExecutionStarted? ==>
        s.emitted[k].payload == Payload(IncidentId(iid, obs.now), r.instance, r.signals, r.snapshots)
    ensures var s := Evaluate(cfg, iid, obs, table);
      var r := s.status.record;
      (ExecutionStarted(Payload(IncidentId(iid, obs.now), r.instance, r.signals, r.snapshots)) in s.emitted)
        <==> cfg.playbookConfigured && obs.playbookStarts
  {
    var s := Evaluate(cfg, iid, obs, table);
    var signals := Classify(ReadingsOf(obs), cfg.thresholds);
    var alert := Notify(cfg, obs, AlertOf(cfg, iid, obs));
    var f := FollowUp(cfg, iid, obs, signals);
    assert s.emitted == alert.emitted + f.emitted && s.status == f.status;
    FollowUpPayload(cfg, iid, obs, signals);
    assert forall k :: 0 <= k < |alert.emitted| ==> !alert.emitted[k].ExecutionStarted?;
  }

  /** A failed capture leaves `snaps` empty and is reported, and the playbook
      is still started, with no snapshots in its payload. */
  lemma CaptureFailureKeepsPlaybook(cfg: Config, iid: string, obs: Observation, table: map<string, int>)
    requires Fetched(obs) && Classify(ReadingsOf(obs), cfg.thresholds) != []
    requires Gate(cfg.dedupEnabled, cfg.cooldown, table, iid, obs.now).allowed
    requires !Notify(cfg, obs, AlertOf(cfg, iid, obs)).raised
    requires cfg.snapshotOnAlert && Capture(iid, obs.describe, obs.snapshotCall).result.Raised?
    requires !Notify(cfg, obs, SnapshotError(iid)).raised
    requires cfg.playbookConfigured && obs.playbookStarts
    ensures var e := Evaluate(cfg, iid, obs, table).emitted;
      ExecutionStarted(Payload(IncidentId(iid, obs.now), iid, Classify(ReadingsOf(obs), cfg.thresholds), [])) in e
    ensures var e := Evaluate(cfg, iid, obs, table).emitted;
      cfg.telegramConfigured ==> Notified(SnapshotError(iid)) in e
  {
    var s := Evaluate(cfg, iid, obs, table);
    var alert := Notify(cfg, obs, AlertOf(cfg, iid, obs));
    var snap := SnapshotPart(cfg, iid, obs);
    var c := Capture(iid, obs.describe, obs.snapshotCall);
    var err := Notify(cfg, obs, SnapshotError(iid));
    assert snap == Forensics([], c.emitted + err.emitted, false);
    var payload := Payload(IncidentId(iid, obs.now), iid, Classify(ReadingsOf(obs), cfg.thresholds), []);
    var play := PlaybookPart(cfg, obs, payload);
    assert s.emitted == alert.emitted + snap.emitted + play.emitted;
    assert s.emitted[|alert.emitted| + |snap.emitted|] == ExecutionStarted(payload);
    if cfg.telegramConfigured {
      assert s.emitted[|alert.emitted| + |c.emitted|] == Notified(SnapshotError(iid));
    }
  }

  /** After an instance passed the gate, the same instance evaluated again
      less than `COOLDOWN` later is skipped without a trace. */
  lemma NoRepeatWithinCooldown(cfg: Config, iid: string, first: Observation, second: Observation,
                               table: map<string, int>)
    requires cfg.dedupEnabled
    requires Evaluate(cfg, iid, first, table).status.Recorded?
    requires Fetched(second) && second.now - first.now < cfg.cooldown
    ensures var after := Evaluate(cfg, iid, first, table).table;
      Evaluate(cfg, iid, second, after) == Step(Skipped, after, [])
  {
    RecordContents(cfg, iid, first, table);
  }

  // ---------------------------------------------------------------------------
  // Properties of a pass

  /** `records` are the records made at the increasing positions `pos` of
      the ids: the pass reached each such position (nothing before it
      raised), its evaluation returned exactly that record, and the record
      is for the id there with the signals of its own readings. */
  ghost predicate RecordsAt(cfg: Config, ids: seq<string>, world: nat -> Observation, table: map<string, int>,
                            records: seq<Record>, pos: seq<nat>)
  {
    && |pos| == |records|
    && (forall j :: 0 <= j < |pos| ==>
          && pos[j] < |ids|
          && !Run(cfg, ids[..pos[j]], world, table).aborted
          && Evaluate(cfg, ids[pos[j]], world(pos[j]), Run(cfg, ids[..pos[j]], world, table).table).status
             == Recorded(records[j])
          && records[j].instance == ids[pos[j]]
          && Fetched(world(pos[j]))
          && records[j].signals == Classify(ReadingsOf(world(pos[j])), cfg.thresholds)
          && records[j].signals != [])
    && (forall i, j :: 0 <= i < j < |pos| ==> pos[i] < pos[j])
  }

  /** Positions in a prefix of the ids are positions in the whole. */
  lemma RecordsAtPrefix(cfg: Config, ids: seq<string>, n: nat, world: nat -> Observation, table: map<string, int>,
                        records: seq<Record>, pos: seq<nat>)
    requires n <= |ids|
    requires RecordsAt(cfg, ids[..n], world, table, records, pos)
    ensures RecordsAt(cfg, ids, world, table, records, pos)
    ensures forall j :: 0 <= j < |pos| ==> pos[j] < n
  {
    forall j | 0 <= j < |pos|
      ensures pos[j] < |ids| && ids[..n][pos[j]] == ids[pos[j]] && ids[..n][..pos[j]] == ids[..pos[j]]
    {
    }
  }

  /** A record for a position after all the others extends the alignment. */
  lemma RecordsAtExtend(cfg: Config, ids: seq<string>, n: nat, world: nat -> Observation, table: map<string, int>,
                        records: seq<Record>, pos: seq<nat>, r: Record)
    requires n < |ids|
    requires RecordsAt(cfg, ids, world, table, records, pos)
    requires forall j :: 0 <= j < |pos| ==> pos[j] < n
    requires !Run(cfg, ids[..n], world, table).aborted
    requires Evaluate(cfg, ids[n], world(n), Run(cfg, ids[..n], world, table).table).status == Recorded(r)
    requires r.instance == ids[n] && Fetched(world(n))
    requires r.signals == Classify(ReadingsOf(world(n)), cfg.thresholds) && r.signals != []
    ensures RecordsAt(cfg, ids, world, table, records + [r], pos + [n])
  {
    var records', pos' := records + [r], pos + [n];
    forall j | 0 <= j < |pos'|
      ensures && pos'[j] < |ids|
              && !Run(cfg, ids[..pos'[j]], world, table).aborted
              && Evaluate(cfg, ids[pos'[j]], world(pos'[j]), Run(cfg, ids[..pos'[j]], world, table).table).status
                 == Recorded(records'[j])
              && records'[j].instance == ids[pos'[j]]
              && Fetched(world(pos'[j]))
              && records'[j].signals == Classify(ReadingsOf(world(pos'[j])), cfg.thresholds)
              && records'[j].signals != []
    {
      if j < |pos| {
        assert pos'[j] == pos[j] && records'[j] == records[j];
      } else {
        assert pos'[j] == n && records'[j] == r;
      }
    }
  }

  /** Records follow the input order, and every record comes from an
      evaluation: each is the record that the evaluation of the id at some
      position, reached by the pass, returned, the positions increase, and
      each record carries the signals of that position's own readings. */
  lemma {:induction false} RecordsFollowInputOrder(cfg: Config, ids: seq<string>, world: nat -> Observation,
                                                   table: map<string, int>)
    ensures exists pos :: RecordsAt(cfg, ids, world, table, Run(cfg, ids, world, table).records, pos)
    decreases |ids|
  {
    var result := Run(cfg, ids, world, table);
    if ids == [] {
      assert RecordsAt(cfg, ids, world, table, result.records, []);
    } else {
      var n := |ids| - 1;
      RecordsFollowInputOrder(cfg, ids[..n], world, table);
      var p := Run(cfg, ids[..n], world, table);
      var pos :| RecordsAt(cfg, ids[..n], world, table, p.records, pos);
      RecordsAtPrefix(cfg, ids, n, world, table, p.records, pos);
      if p.aborted {
        assert result.records == p.records;
        assert RecordsAt(cfg, ids, world, table, result.records, pos);
      } else {
        var s := Evaluate(cfg, ids[n], world(n), p.table);
        if s.status.Recorded? {
          RecordContents(cfg, ids[n], world(n), p.table);
          RecordsAtExtend(cfg, ids, n, world, table, p.records, pos, s.status.record);
          assert result.records == p.records + [s.status.record];
          assert RecordsAt(cfg, ids, world, table, result.records, pos + [n]);
        } else {
          assert result.records == p.records;
          assert RecordsAt(cfg, ids, world, table, result.records, pos);
        }
      }
    }
  }

  /** The last id of a pass only appends to the records of the ids before it. */
  lemma LastRecordsGrow(cfg: Config, ids: seq<string>, world: nat -> Observation, table: map<string, int>)
    requires ids != []
    ensures Run(cfg, ids[..|ids| - 1], world, table).records <= Run(cfg, ids, world, table).records
  {
    var n := |ids| - 1;
    var p := Run(cfg, ids[..n], world, table);
    if !p.aborted {
      assert Run(cfg, ids, world, table) == Extend(p, Evaluate(cfg, ids[n], world(n), p.table));
    }
  }

  /** Records only grow as a pass goes on: the records of the first `m` ids
      are a prefix of the records of all of them. */
  lemma {:induction false} RecordsGrow(cfg: Config, ids: seq<string>, world: nat -> Observation,
                                       table: map<string, int>, m: nat)
    requires m <= |ids|
    ensures Run(cfg, ids[..m], world, table).records <= Run(cfg, ids, world, table).records
    decreases |ids| - m
  {
    if m < |ids| {
      var n := |ids| - 1;
      assert ids[..n][..m] == ids[..m];
      RecordsGrow(cfg, ids[..n], world, table, m);
      LastRecordsGrow(cfg, ids, world, table);
    } else {
      assert ids[..m] == ids;
    }
  }

  /** Every instance the pass reaches and records keeps its record: the
      record of the id at position `i` is in the pass's records, right after
      the records of the ids before it, whatever the later ids do. */
  lemma RecordKept(cfg: Config, ids: seq<string>, world: nat -> Observation, table: map<string, int>, i: nat)
    requires i < |ids|
    requires !Run(cfg, ids[..i], world, table).aborted
    requires Evaluate(cfg, ids[i], world(i), Run(cfg, ids[..i], world, table).table).status.Recorded?
    ensures var before := Run(cfg, ids[..i], world, table);
      var records := Run(cfg, ids, world, table).records;
      |before.records| < |records| &&
      records[|before.records|] == Evaluate(cfg, ids[i], world(i), before.table).status.record
  {
    RunStep(cfg, ids, world, table, i);
    RecordsGrow(cfg, ids, world, table, i + 1);
  }

  /** An instance that leaves no trace: its readings were fetched, and it
      either has no signal or is within `COOLDOWN` of its last alert. */
  predicate Quiet(cfg: Config, iid: string, obs: Observation, table: map<string, int>) {
    && Fetched(obs)
    && (|| Classify(ReadingsOf(obs), cfg.thresholds) == []
        || (cfg.dedupEnabled && obs.now - LastAlert(table, iid) < cfg.cooldown))
  }

  /** A pass over instances that are all quiet records nothing, sends
      nothing and leaves the table as it was. */
  lemma {:induction false} QuietPass(cfg: Config, ids: seq<string>, world: nat -> Observation,
                                     table: map<string, int>)
    requires forall k :: 0 <= k < |ids| ==> Quiet(cfg, ids[k], world(k), table)
    ensures Run(cfg, ids, world, table) == Pass([], false, table, [])
    decreases |ids|
  {
    if ids != [] {
      var n := |ids| - 1;
      assert forall k :: 0 <= k < n ==> ids[..n][k] == ids[k];
      QuietPass(cfg, ids[..n], world, table);
      assert Quiet(cfg, ids[n], world(n), table);
    }
  }

  /** The state table holds, for `iid`, a time no earlier than `t`. */
  predicate Stamped(table: map<string, int>, iid: string, t: int) {
    iid in table && table[iid] >= t
  }

  /** With a cooldown that is not negative, an evaluation never moves a
      stored time back: the gate writes `now` only when it is at least
      `COOLDOWN` past the time already stored. */
  lemma EvaluateKeepsStamp(cfg: Config, iid: string, obs: Observation, table: map<string, int>,
                           id: string, t: int)
    requires cfg.cooldown >= 0
    requires Stamped(table, id, t)
    ensures Stamped(Evaluate(cfg, iid, obs, table).table, id, t)
  {
    GateBeforeEffects(cfg, iid, obs, table);
  }

  /** A stored time survives the last id of a pass. */
  lemma LastKeepsStamp(cfg: Config, ids: seq<string>, world: nat -> Observation,
                       table: map<string, int>, id: string, t: int)
    requires cfg.cooldown >= 0
    requires ids != []
    requires Stamped(Run(cfg, ids[..|ids| - 1], world, table).table, id, t)
    ensures Stamped(Run(cfg, ids, world, table).table, id, t)
  {
    var n := |ids| - 1;
    var p := Run(cfg, ids[..n], world, table);
    if !p.aborted {
      EvaluateKeepsStamp(cfg, ids[n], world(n), p.table, id, t);
    }
  }

  /** A stored time survives the rest of a pass, from the first `m` ids to
      all of them. */
  lemma {:induction false} RunKeepsStamp(cfg: Config, ids: seq<string>, world: nat -> Observation,
                                         table: map<string, int>, m: nat, id: string, t: int)
    requires cfg.cooldown >= 0
    requires m <= |ids|
    requires Stamped(Run(cfg, ids[..m], world, table).table, id, t)
    ensures Stamped(Run(cfg, ids, world, table).table, id, t)
    decreases |ids| - m
  {
    if m < |ids| {
      var n := |ids| - 1;
      assert ids[..n][..m] == ids[..m];
      RunKeepsStamp(cfg, ids[..n], world, table, m, id, t);
      LastKeepsStamp(cfg, ids, world, table, id, t);
    } else {
      assert ids[..m] == ids;
    }
  }

  /** With a table, a recorded instance is stored with exactly its own
      time, and no other entry changes. */
  lemma RecordStamps(cfg: Config, iid: string, obs: Observation, table: map<string, int>)
    requires cfg.dedupEnabled
    requires Evaluate(cfg, iid, obs, table).status.Recorded?
    ensures Evaluate(cfg, iid, obs, table).table == table[iid := obs.now]
    ensures Stamped(Evaluate(cfg, iid, obs, table).table, iid, obs.now)
  {
    RecordContents(cfg, iid, obs, table);
  }

  /** Less than `COOLDOWN` after a stored time, an evaluation of that
      instance sends nothing and records nothing. */
  lemma StampSilences(cfg: Config, iid: string, obs: Observation, table: map<string, int>, t: int)
    requires cfg.dedupEnabled && Stamped(table, iid, t) && obs.now < t + cfg.cooldown
    ensures Evaluate(cfg, iid, obs, table).emitted == []
    ensures !Evaluate(cfg, iid, obs, table).status.Recorded?
  {
    GateBeforeEffects(cfg, iid, obs, table);
  }

  /** No repeat across invocations: once a pass records the id at position
      `i`, at time `t`, a later pass that starts from the table the first
      one left sends nothing for that id and records nothing for it at any
      position whose time is less than `t + COOLDOWN`, wherever the id
      stands in its list and whatever came before it. */
  lemma RerunWithinCooldownSilent(cfg: Config, ids1: seq<string>, world1: nat -> Observation,
                                  ids2: seq<string>, world2: nat -> Observation,
                                  table: map<string, int>, i: nat, q: nat)
    requires cfg.dedupEnabled && cfg.cooldown >= 0
    requires i < |ids1| && q < |ids2|
    requires !Run(cfg, ids1[..i], world1, table).aborted
    requires Evaluate(cfg, ids1[i], world1(i), Run(cfg, ids1[..i], world1, table).table).status.Recorded?
    requires ids2[q] == ids1[i] && world2(q).now < world1(i).now + cfg.cooldown
    ensures var second := Run(cfg, ids2[..q], world2, Run(cfg, ids1, world1, table).table);
      Evaluate(cfg, ids2[q], world2(q), second.table).emitted == []
    ensures var second := Run(cfg, ids2[..q], world2, Run(cfg, ids1, world1, table).table);
      !Evaluate(cfg, ids2[q], world2(q), second.table).status.Recorded?
  {
    var before := Run(cfg, ids1[..i], world1, table);
    var t := world1(i).now;
    RecordStamps(cfg, ids1[i], world1(i), before.table);
    RunStep(cfg, ids1, world1, table, i);
    RunKeepsStamp(cfg, ids1, world1, table, i + 1, ids1[i], t);
    var t1 := Run(cfg, ids1, world1, table).table;
    assert ids2[..q][..0] == [];
    RunKeepsStamp(cfg, ids2[..q], world2, t1, 0, ids1[i], t);
    StampSilences(cfg, ids2[q], world2(q), Run(cfg, ids2[..q], world2, t1).table, t);
  }

  // ---------------------------------------------------------------------------
  // Properties of the handler

  /** A blank `INSTANCE_IDS` sends the one warning and returns
      `{"error": "no instances"}` without evaluating any instance (unless the
      warning itself raises). */
  lemma BlankListWarns(cfg: Config, raw: string, warningDelivered: bool, world: nat -> Observation,
                       table: map<string, int>)
    requires AllSpace(raw)
    ensures Handle(cfg, raw, warningDelivered, world, table)
      == Outcome(if cfg.telegramConfigured && !warningDelivered then HandlerRaised else NoInstances,
                 table,
                 if cfg.telegramConfigured then [Notified(NoInstancesConfigured)] else [])
  {
    StripBlank(raw);
  }

  /** `{"error": "no instances"}` is returned only for a blank list. */
  lemma NoInstancesOnlyWhenBlank(cfg: Config, raw: string, warningDelivered: bool, world: nat -> Observation,
                                 table: map<string, int>)
    ensures Handle(cfg, raw, warningDelivered, world, table).response == NoInstances
      <==> AllSpace(raw) && !(cfg.telegramConfigured && !warningDelivered)
  {
    StripBlank(raw);
  }

  /** A list of separators only is not blank: no warning, no error, and an
      empty incident list. */
  lemma SeparatorsOnlyNoIncidents(cfg: Config, warningDelivered: bool, world: nat -> Observation,
                                  table: map<string, int>)
    ensures Handle(cfg, ",,", warningDelivered, world, table) == Outcome(Incidents([]), table, [])
  {
    OnlySeparators();
  }
}

=== FILE: instance_ids.dfy ===
/** Parsing of the `INSTANCE_IDS` setting: Python's `str.strip()`, `str.split(",")`
    and the comprehension that keeps the stripped, non-empty pieces. */
module InstanceIds {

  /** The characters Python's `str.isspace()` accepts, which `str.strip()` removes. */
  const Whitespace: set<char> := {
    '\t', '\n', '\U{0B}', '\U{0C}', '\r', '\U{1C}', '\U{1D}', '\U{1E}', '\U{1F}', ' ',
    '\U{85}', '\U{A0}', '\U{1680}',
    '\U{2000}', '\U{2001}', '\U{2002}', '\U{2003}', '\U{2004}', '\U{2005}',
    '\U{2006}', '\U{2007}', '\U{2008}', '\U{2009}', '\U{200A}',
    '\U{2028}', '\U{2029}', '\U{202F}', '\U{205F}', '\U{3000}'
  }

  predicate IsSpace(c: char) {
    c in Whitespace
  }

  predicate AllSpace(s: string) {
    forall i :: 0 <= i < |s| ==> IsSpace(s[i])
  }

  /** No white space at either end. */
  predicate Trimmed(s: string) {
    s == [] || (!IsSpace(s[0]) && !IsSpace(s[|s| - 1]))
  }

  /** Python's `s.strip()`: drops white space from both ends. No white space
      is left at either end, and the result holds only characters of `s`. */
  function Strip(s: string): (r: string)
    ensures Trimmed(r)
    ensures forall c :: c in r ==> c in s
    decreases |s|
  {
    if s != [] && IsSpace(s[0]) then Strip(s[1..])
    else if s != [] && IsSpace(s[|s| - 1]) then Strip(s[..|s| - 1])
    else s
  }

  /** `strip()` leaves nothing exactly when the string is all white space. */
  lemma {:induction false} StripBlank(s: string)
    ensures Strip(s) == [] <==> AllSpace(s)
    decreases |s|
  {
    if s != [] && IsSpace(s[0]) {
      StripBlank(s[1..]);
      assert forall i :: 1 <= i < |s| ==> s[i] == s[1..][i - 1];
    } else if s != [] && IsSpace(s[|s| - 1]) {
      StripBlank(s[..|s| - 1]);
      assert forall i :: 0 <= i < |s| - 1 ==> s[i] == s[..|s| - 1][i];
    }
  }

  /** `r` is the slice `s[i..j]`, and only white space comes before `i` and
      after `j`. */
  ghost predicate SliceBetweenSpace(s: string, r: string, i: int, j: int) {
    && 0 <= i <= j <= |s|
    && r == s[i..j]
    && (forall k :: 0 <= k < i ==> IsSpace(s[k]))
    && (forall k :: j <= k < |s| ==> IsSpace(s[k]))
  }

  /** `Strip` removes exactly the white space at the two ends: its result is
      the slice of `s` left after a run of white space at the front and one
      at the back. With `Trimmed`, this pins the result down. */
  lemma {:induction false} StripSlice(s: string)
    ensures exists i, j :: SliceBetweenSpace(s, Strip(s), i, j)
    decreases |s|
  {
    if s != [] && IsSpace(s[0]) {
      var t := s[1..];
      StripSlice(t);
      var i, j :| SliceBetweenSpace(t, Strip(t), i, j);
      assert Strip(s) == Strip(t);
      assert t[i..j] == s[i + 1..j + 1];
      assert forall k :: 1 <= k < |s| ==> s[k] == t[k - 1];
      assert SliceBetweenSpace(s, Strip(s), i + 1, j + 1);
    } else if s != [] && IsSpace(s[|s| - 1]) {
      var t := s[..|s| - 1];
      StripSlice(t);
      var i, j :| SliceBetweenSpace(t, Strip(t), i, j);
      assert Strip(s) == Strip(t);
      assert t[i..j] == s[i..j];
      assert forall k :: 0 <= k < |t| ==> s[k] == t[k];
      assert SliceBetweenSpace(s, Strip(s), i, j);
    } else {
      assert s[0..|s|] == s;
      assert SliceBetweenSpace(s, Strip(s), 0, |s|);
    }
  }

  /** A string that has no white space at either end is left alone by `Strip`. */
  lemma StripTrimmed(s: string)
    requires Trimmed(s)
    ensures Strip(s) == s
  {
  }

  /** Python's `s.split(",")`: the pieces between the commas, in order; an
      empty string still gives one (empty) piece. */
  function Split(s: string): (pieces: seq<string>)
    ensures |pieces| >= 1
    ensures forall p :: p in pieces ==> ',' !in p
    decreases |s|
  {
    if s == [] then [""]
    else if s[0] == ',' then [""] + Split(s[1..])
    else
      var rest := Split(s[1..]);
      assert forall p :: p in rest[1..] ==> p in rest;
      [[s[0]] + rest[0]] + rest[1..]
  }

  /** `",".join(pieces)`, the inverse of `Split`. */
  function Join(pieces: seq<string>): string
    decreases |pieces|
  {
    if pieces == [] then ""
    else if |pieces| == 1 then pieces[0]
    else pieces[0] + "," + Join(pieces[1..])
  }

  /** Joining the pieces back with commas gives the original string. */
  lemma {:induction false} JoinSplit(s: string)
    ensures Join(Split(s)) == s
    decreases |s|
  {
    if s == [] {
    } else if s[0] == ',' {
      JoinSplit(s[1..]);
      assert s == "," + s[1..];
    } else {
      JoinSplit(s[1..]);
      var rest := Split(s[1..]);
      var pieces := Split(s);
      assert pieces == [[s[0]] + rest[0]] + rest[1..];
      if |rest| == 1 {
        assert Join(pieces) == [s[0]] + rest[0];
      } else {
        assert pieces[1..] == rest[1..];
        assert Join(rest) == rest[0] + "," + Join(rest[1..]);
        assert Join(pieces) == ([s[0]] + rest[0]) + "," + Join(rest[1..]);
      }
      assert s == [s[0]] + s[1..];
    }
  }

  /** A comma-free head is glued to the first piece of what follows it. */
  lemma {:induction false} SplitPrepend(p: string, s: string)
    requires ',' !in p
    ensures Split(p + s) == [p + Split(s)[0]] + Split(s)[1..]
    decreases |p|
  {
    if p == [] {
      var pieces := Split(s);
      assert p + s == s && p + pieces[0] == pieces[0];
      assert pieces == [pieces[0]] + pieces[1..];
    } else {
      SplitPrepend(p[1..], s);
      var rest := Split(p[1..] + s);
      assert Split(p + s) == [[p[0]] + rest[0]] + rest[1..] by {
        assert (p + s)[0] == p[0] != ',';
        assert (p + s)[1..] == p[1..] + s;
      }
      assert [p[0]] + (p[1..] + Split(s)[0]) == p + Split(s)[0];
    }
  }

  /** Splitting comma-free pieces joined with commas gives the pieces back. */
  lemma {:induction false} SplitJoin(pieces: seq<string>)
    requires |pieces| >= 1
    requires forall i :: 0 <= i < |pieces| ==> ',' !in pieces[i]
    ensures Split(Join(pieces)) == pieces
    decreases |pieces|
  {
    if |pieces| == 1 {
      SplitPrepend(pieces[0], "");
      assert pieces[0] + "" == pieces[0];
    } else {
      var tail := Join(pieces[1..]);
      SplitJoin(pieces[1..]);
      SplitPrepend(pieces[0], "," + tail);
      assert Split("," + tail) == [""] + Split(tail) by {
        assert ("," + tail)[1..] == tail;
      }
      assert pieces[0] + "," + tail == pieces[0] + ("," + tail);
      assert pieces[0] + "" == pieces[0];
    }
  }

  /** The comprehension `[s.strip() for s in pieces if s.strip()]`: keeps the
      stripped pieces that are not empty, in order. */
  function Keep(pieces: seq<string>): (ids: seq<string>)
    ensures |ids| <= |pieces|
    ensures forall i :: 0 <= i < |ids| ==> ids[i] != "" && Trimmed(ids[i])
    decreases |pieces|
  {
    if pieces == [] then []
    else
      var head := Strip(pieces[0]);
      (if head != "" then [head] else []) + Keep(pieces[1..])
  }

  /** What `Keep` keeps: exactly the non-empty stripped pieces. */
  lemma {:induction false} KeepMembers(pieces: seq<string>, id: string)
    ensures id in Keep(pieces) <==>
      id != "" && exists i :: 0 <= i < |pieces| && Strip(pieces[i]) == id
    decreases |pieces|
  {
    if pieces != [] {
      KeepMembers(pieces[1..], id);
      var tail := pieces[1..];
      if exists i :: 0 <= i < |tail| && Strip(tail[i]) == id {
        var i :| 0 <= i < |tail| && Strip(tail[i]) == id;
        assert pieces[i + 1] == tail[i];
      }
      if exists i :: 0 <= i < |pieces| && Strip(pieces[i]) == id {
        var i :| 0 <= i < |pieces| && Strip(pieces[i]) == id;
        if i > 0 {
          assert tail[i - 1] == pieces[i];
        }
      }
    }
  }

  /** `ids` are the stripped pieces at the strictly increasing positions
      `pos`, and every piece at any other position strips to nothing. */
  ghost predicate KeptAt(pieces: seq<string>, ids: seq<string>, pos: seq<nat>) {
    && |pos| == |ids|
    && (forall j :: 0 <= j < |pos| ==> pos[j] < |pieces| && ids[j] == Strip(pieces[pos[j]]))
    && (forall j, k :: 0 <= j < k < |pos| ==> pos[j] < pos[k])
    && (forall i: nat :: i < |pieces| && i !in pos ==> Strip(pieces[i]) == "")
  }

  /** Every position moved one piece to the right. */
  function Shifted(pos: seq<nat>): (r: seq<nat>)
    ensures |r| == |pos|
    ensures forall k :: 0 <= k < |pos| ==> r[k] == pos[k] + 1
  {
    seq(|pos|, k requires 0 <= k < |pos| => pos[k] + 1)
  }

  /** A blank first piece adds no id, and the positions of the rest move
      one piece to the right. */
  lemma KeptAtBlankHead(pieces: seq<string>, ids: seq<string>, tp: seq<nat>)
    requires pieces != [] && Strip(pieces[0]) == ""
    requires KeptAt(pieces[1..], ids, tp)
    ensures KeptAt(pieces, ids, Shifted(tp))
  {
    var pos := Shifted(tp);
    forall j | 0 <= j < |pos| ensures pos[j] < |pieces| && ids[j] == Strip(pieces[pos[j]]) {
      assert pieces[pos[j]] == pieces[1..][tp[j]];
    }
    forall i: nat | i < |pieces| && i !in pos ensures Strip(pieces[i]) == "" {
      if i > 0 {
        assert forall k :: 0 <= k < |tp| ==> pos[k] == tp[k] + 1;
        assert i - 1 !in tp;
        assert pieces[i] == pieces[1..][i - 1];
      }
    }
  }

  /** A position after 0 missing from the shifted positions was missing
      before the shift. */
  lemma NotShifted(tp: seq<nat>, i: nat)
    requires i > 0 && i !in [0] + Shifted(tp)
    ensures i - 1 !in tp
  {
    forall k | 0 <= k < |tp| ensures tp[k] != i - 1 {
      assert ([0] + Shifted(tp))[k + 1] == tp[k] + 1;
    }
  }

  /** A non-blank first piece adds its stripped form at position 0, and the
      positions of the rest move one piece to the right. */
  lemma KeptAtIdHead(pieces: seq<string>, ids: seq<string>, tp: seq<nat>)
    requires pieces != [] && Strip(pieces[0]) != ""
    requires KeptAt(pieces[1..], ids, tp)
    ensures KeptAt(pieces, [Strip(pieces[0])] + ids, [0] + Shifted(tp))
  {
    IdHeadKept(pieces, ids, tp);
    IdHeadDropped(pieces, ids, tp);
  }

  /** The ids at the new positions are the stripped pieces there. */
  lemma IdHeadKept(pieces: seq<string>, ids: seq<string>, tp: seq<nat>)
    requires pieces != []
    requires KeptAt(pieces[1..], ids, tp)
    ensures var pos := [0] + Shifted(tp);
      var all := [Strip(pieces[0])] + ids;
      forall j :: 0 <= j < |pos| ==> pos[j] < |pieces| && all[j] == Strip(pieces[pos[j]])
  {
    var pos := [0] + Shifted(tp);
    var all := [Strip(pieces[0])] + ids;
    forall j | 0 <= j < |pos| ensures pos[j] < |pieces| && all[j] == Strip(pieces[pos[j]]) {
      if j > 0 {
        assert pos[j] == tp[j - 1] + 1 && all[j] == ids[j - 1];
        assert pieces[pos[j]] == pieces[1..][tp[j - 1]];
      }
    }
  }

  /** Every piece away from the new positions strips to nothing. */
  lemma IdHeadDropped(pieces: seq<string>, ids: seq<string>, tp: seq<nat>)
    requires pieces != []
    requires KeptAt(pieces[1..], ids, tp)
    ensures forall i: nat :: i < |pieces| && i !in [0] + Shifted(tp) ==> Strip(pieces[i]) == ""
  {
    forall i: nat | i < |pieces| && i !in [0] + Shifted(tp) ensures Strip(pieces[i]) == "" {
      assert i > 0;
      NotShifted(tp, i);
      assert pieces[i] == pieces[1..][i - 1];
    }
  }

  /** `Keep` keeps one id per non-blank piece, in the order of the pieces,
      duplicates included: the kept ids sit at increasing positions of the
      pieces, and every piece left out is blank once stripped. */
  lemma {:induction false} KeepPositions(pieces: seq<string>)
    ensures exists pos :: KeptAt(pieces, Keep(pieces), pos)
    decreases |pieces|
  {
    if pieces == [] {
      assert KeptAt(pieces, Keep(pieces), []);
    } else {
      var tail := pieces[1..];
      KeepPositions(tail);
      var tp :| KeptAt(tail, Keep(tail), tp);
      KeepStep(pieces, tp);
    }
  }

  /** Positions for the ids kept from all but the first piece give
      positions for the ids kept from all the pieces. */
  lemma KeepStep(pieces: seq<string>, tp: seq<nat>)
    requires pieces != []
    requires KeptAt(pieces[1..], Keep(pieces[1..]), tp)
    ensures exists pos :: KeptAt(pieces, Keep(pieces), pos)
  {
    var tail := pieces[1..];
    if Strip(pieces[0]) != "" {
      KeptAtIdHead(pieces, Keep(tail), tp);
      assert Keep(pieces) == [Strip(pieces[0])] + Keep(tail);
      assert KeptAt(pieces, Keep(pieces), [0] + Shifted(tp));
    } else {
      KeptAtBlankHead(pieces, Keep(tail), tp);
      assert Keep(pieces) == Keep(tail);
      assert KeptAt(pieces, Keep(pieces), Shifted(tp));
    }
  }

  /** `instances_raw.split(",")` on the stripped value. */
  function Pieces(raw: string): seq<string> {
    Split(Strip(raw))
  }

  /** Line 118: the instance ids named by a (non-blank) `INSTANCE_IDS` value.
      None is empty, none contains a comma, none has white space at either end. */
  function ParseIds(raw: string): (ids: seq<string>)
    ensures forall i :: 0 <= i < |ids| ==> ids[i] != "" && ',' !in ids[i] && Trimmed(ids[i])
  {
    var pieces := Pieces(raw);
    var ids := Keep(pieces);
    assert forall k :: 0 <= k < |ids| ==> ',' !in ids[k] by {
      forall k | 0 <= k < |ids| ensures ',' !in ids[k] {
        KeepMembers(pieces, ids[k]);
        var i :| 0 <= i < |pieces| && Strip(pieces[i]) == ids[k];
        assert pieces[i] in pieces;
      }
    }
    ids
  }

  /** The parsed ids are exactly the non-empty stripped comma-separated
      pieces of the stripped value. */
  lemma ParseIdsMembers(raw: string, id: string)
    ensures id in ParseIds(raw) <==>
      id != "" && exists i :: 0 <= i < |Pieces(raw)| && Strip(Pieces(raw)[i]) == id
  {
    KeepMembers(Pieces(raw), id);
  }

  /** The parsed ids follow the pieces in order, one id per non-blank piece
      (a repeated id is kept twice), and no piece that is not blank once
      stripped is dropped. */
  lemma ParseIdsPositions(raw: string)
    ensures exists pos :: KeptAt(Pieces(raw), ParseIds(raw), pos)
  {
    KeepPositions(Pieces(raw));
    assert ParseIds(raw) == Keep(Pieces(raw));
  }

  /** Pieces that are already clean survive `Keep` unchanged. */
  lemma {:induction false} KeepClean(pieces: seq<string>)
    requires forall i :: 0 <= i < |pieces| ==> pieces[i] != "" && Trimmed(pieces[i])
    ensures Keep(pieces) == pieces
    decreases |pieces|
  {
    if pieces != [] {
      KeepClean(pieces[1..]);
      StripTrimmed(pieces[0]);
      assert pieces == [pieces[0]] + pieces[1..];
    }
  }

  /** The joined string starts with the first piece and ends with the last. */
  lemma {:induction false} JoinEnds(pieces: seq<string>)
    requires |pieces| >= 1
    requires forall i :: 0 <= i < |pieces| ==> pieces[i] != ""
    ensures Join(pieces) != ""
    ensures Join(pieces)[0] == pieces[0][0]
    ensures Join(pieces)[|Join(pieces)| - 1] == pieces[|pieces| - 1][|pieces[|pieces| - 1]| - 1]
    decreases |pieces|
  {
    if |pieces| > 1 {
      JoinEnds(pieces[1..]);
      assert pieces[|pieces| - 1] == pieces[1..][|pieces[1..]| - 1];
    }
  }

  /** Writing clean ids out as `INSTANCE_IDS` and parsing them back gives
      the same ids in the same order. */
  lemma ParseIdsRoundTrip(ids: seq<string>)
    requires forall i :: 0 <= i < |ids| ==> ids[i] != "" && ',' !in ids[i] && Trimmed(ids[i])
    ensures ParseIds(Join(ids)) == ids
  {
    if ids == [] {
      assert Split(Strip("")) == [""];
    } else {
      ParseJoinedIds(ids);
    }
  }

  /** Clean ids joined with commas have no white space at either end. */
  lemma JoinedTrimmed(ids: seq<string>)
    requires ids != []
    requires forall i :: 0 <= i < |ids| ==> ids[i] != "" && Trimmed(ids[i])
    ensures Strip(Join(ids)) == Join(ids)
  {
    JoinEnds(ids);
    StripTrimmed(Join(ids));
  }

  lemma ParseJoinedIds(ids: seq<string>)
    requires ids != []
    requires forall i :: 0 <= i < |ids| ==> ids[i] != "" && ',' !in ids[i] && Trimmed(ids[i])
    ensures Keep(Split(Strip(Join(ids)))) == ids
  {
    JoinedTrimmed(ids);
    SplitJoin(ids);
    KeepClean(ids);
  }

  /** A value made only of separators is configured (it is not blank) but
      names no instance. */
  lemma OnlySeparators()
    ensures Strip(",,") != ""
    ensures ParseIds(",,") == []
  {
    assert !IsSpace(',');
    assert Strip(",,") == ",," by {
      StripTrimmed(",,");
    }
    assert Split(",,") == ["", "", ""] by {
      assert ",,"[1..] == ",";
      assert ","[1..] == "";
    }
  }
}

=== FILE: snapshots.dfy ===
/** `_snapshots_for_instance`: collect the EBS volume ids of an instance from
    the `describe_instances` response, then snapshot and tag each volume. */
module Snapshots {
  import opened Wrappers
  import opened Effects

  /** The parts of the `describe_instances` response the code reads; a
      missing list is an empty one, a missing `Ebs` or `VolumeId` is `None`. */
  datatype Ebs = Ebs(volumeId: Option<string>)
  datatype BlockDeviceMapping = BlockDeviceMapping(ebs: Option<Ebs>)
  datatype InstanceDescription = InstanceDescription(mappings: seq<BlockDeviceMapping>)
  datatype Reservation = Reservation(instances: seq<InstanceDescription>)
  datatype Description = Description(reservations: seq<Reservation>)

  /** Line 95: `if ebs and ebs.get("VolumeId")`, so an absent or empty volume
      id is skipped. */
  function VolumeOf(m: BlockDeviceMapping): Option<string> {
    if m.ebs.Some? && m.ebs.value.volumeId.Some? && m.ebs.value.volumeId.value != ""
    then Some(m.ebs.value.volumeId.value)
    else None
  }

  /** The volume ids of a list of mappings, in order. */
  function MappingVolumes(ms: seq<BlockDeviceMapping>): seq<string>
    decreases |ms|
  {
    if ms == [] then []
    else
      var n := |ms| - 1;
      MappingVolumes(ms[..n]) + (if VolumeOf(ms[n]).Some? then [VolumeOf(ms[n]).value] else [])
  }

  /** The volume ids of a list of instances, instance after instance. */
  function InstanceVolumes(insts: seq<InstanceDescription>): seq<string>
    decreases |insts|
  {
    if insts == [] then []
    else
      var n := |insts| - 1;
      InstanceVolumes(insts[..n]) + MappingVolumes(insts[n].mappings)
  }

  /** The volume ids of a list of reservations, reservation after reservation. */
  function ReservationVolumes(rs: seq<Reservation>): seq<string>
    decreases |rs|
  {
    if rs == [] then []
    else
      var n := |rs| - 1;
      ReservationVolumes(rs[..n]) + InstanceVolumes(rs[n].instances)
  }

  /** `vol_ids` of lines 90-96, in reservation, instance, mapping order. */
  function VolumeIds(desc: Description): seq<string> {
    ReservationVolumes(desc.reservations)
  }

  lemma {:induction false} MappingVolumesMembers(ms: seq<BlockDeviceMapping>, v: string)
    ensures v in MappingVolumes(ms) <==> exists k :: 0 <= k < |ms| && VolumeOf(ms[k]) == Some(v)
    decreases |ms|
  {
    if ms != [] {
      var n := |ms| - 1;
      MappingVolumesMembers(ms[..n], v);
      assert forall k :: 0 <= k < n ==> ms[..n][k] == ms[k];
    }
  }

  lemma {:induction false} InstanceVolumesMembers(insts: seq<InstanceDescription>, v: string)
    ensures v in InstanceVolumes(insts) <==>
      exists k, m :: 0 <= k < |insts| && 0 <= m < |insts[k].mappings| && VolumeOf(insts[k].mappings[m]) == Some(v)
    decreases |insts|
  {
    if insts != [] {
      var n := |insts| - 1;
      var before := insts[..n];
      var last := insts[n].mappings;
      InstanceVolumesMembers(before, v);
      MappingVolumesMembers(last, v);
      assert InstanceVolumes(insts) == InstanceVolumes(before) + MappingVolumes(last);
      if v in InstanceVolumes(before) {
        var k, m :| 0 <= k < |before| && 0 <= m < |before[k].mappings| && VolumeOf(before[k].mappings[m]) == Some(v);
        assert before[k] == insts[k];
        assert 0 <= k < |insts| && 0 <= m < |insts[k].mappings| && VolumeOf(insts[k].mappings[m]) == Some(v);
      } else if v in MappingVolumes(last) {
        var m :| 0 <= m < |last| && VolumeOf(last[m]) == Some(v);
        assert 0 <= n < |insts| && 0 <= m < |insts[n].mappings| && VolumeOf(insts[n].mappings[m]) == Some(v);
      }
      if exists k, m :: 0 <= k < |insts| && 0 <= m < |insts[k].mappings| && VolumeOf(insts[k].mappings[m]) == Some(v) {
        var k, m :| 0 <= k < |insts| && 0 <= m < |insts[k].mappings| && VolumeOf(insts[k].mappings[m]) == Some(v);
        if k < n {
          assert before[k] == insts[k];
          assert v in InstanceVolumes(before);
        } else {
          assert v in MappingVolumes(last);
        }
      }
    }
  }

  /** A volume id is collected exactly when some mapping of some instance of
      some reservation has an `Ebs` entry with that non-empty `VolumeId`; so
      no collected id is empty. */
  lemma {:induction false} ReservationVolumesMembers(rs: seq<Reservation>, v: string)
    ensures v in ReservationVolumes(rs) <==>
      exists r, i, m :: 0 <= r < |rs|
        && 0 <= i < |rs[r].instances|
        && 0 <= m < |rs[r].instances[i].mappings|
        && VolumeOf(rs[r].instances[i].mappings[m]) == Some(v)
    decreases |rs|
  {
    if rs != [] {
      var n := |rs| - 1;
      var before := rs[..n];
      var last := rs[n].instances;
      ReservationVolumesMembers(before, v);
      InstanceVolumesMembers(last, v);
      assert ReservationVolumes(rs) == ReservationVolumes(before) + InstanceVolumes(last);
      if v in ReservationVolumes(before) {
        var r, i, m :| 0 <= r < |before| && 0 <= i < |before[r].instances|
          && 0 <= m < |before[r].instances[i].mappings| && VolumeOf(before[r].instances[i].mappings[m]) == Some(v);
        assert before[r] == rs[r];
        assert 0 <= r < |rs| && 0 <= i < |rs[r].instances|
          && 0 <= m < |rs[r].instances[i].mappings| && VolumeOf(rs[r].instances[i].mappings[m]) == Some(v);
      } else if v in InstanceVolumes(last) {
        var i, m :| 0 <= i < |last| && 0 <= m < |last[i].mappings| && VolumeOf(last[i].mappings[m]) == Some(v);
        assert 0 <= n < |rs| && 0 <= i < |rs[n].instances|
          && 0 <= m < |rs[n].instances[i].mappings| && VolumeOf(rs[n].instances[i].mappings[m]) == Some(v);
      }
      if exists r, i, m :: 0 <= r < |rs| && 0 <= i < |rs[r].instances|
           && 0 <= m < |rs[r].instances[i].mappings| && VolumeOf(rs[r].instances[i].mappings[m]) == Some(v)
      {
        var r, i, m :| 0 <= r < |rs| && 0 <= i < |rs[r].instances|
          && 0 <= m < |rs[r].instances[i].mappings| && VolumeOf(rs[r].instances[i].mappings[m]) == Some(v);
        if r < n {
          assert before[r] == rs[r];
          assert v in ReservationVolumes(before);
        } else {
          assert v in InstanceVolumes(last);
        }
      }
    }
  }

  /** The mappings of a list of instances, instance after instance. */
  function InstanceMappings(insts: seq<InstanceDescription>): seq<BlockDeviceMapping>
    decreases |insts|
  {
    if insts == [] then []
    else
      var n := |insts| - 1;
      InstanceMappings(insts[..n]) + insts[n].mappings
  }

  /** The mappings of a response, in reservation, instance, mapping order:
      the order in which the nested loops visit them. */
  function ReservationMappings(rs: seq<Reservation>): seq<BlockDeviceMapping>
    decreases |rs|
  {
    if rs == [] then []
    else
      var n := |rs| - 1;
      ReservationMappings(rs[..n]) + InstanceMappings(rs[n].instances)
  }

  /** The volumes of two lists of mappings one after the other are the
      volumes of the first followed by those of the second. */
  lemma {:induction false} MappingVolumesAppend(a: seq<BlockDeviceMapping>, b: seq<BlockDeviceMapping>)
    ensures MappingVolumes(a + b) == MappingVolumes(a) + MappingVolumes(b)
    decreases |b|
  {
    if b == [] {
      assert a + b == a;
    } else {
      var n := |b| - 1;
      MappingVolumesAppend(a, b[..n]);
      assert (a + b)[..|a + b| - 1] == a + b[..n];
      assert (a + b)[|a + b| - 1] == b[n];
    }
  }

  /** Collecting instance by instance is collecting over all their mappings. */
  lemma {:induction false} InstanceVolumesFlat(insts: seq<InstanceDescription>)
    ensures InstanceVolumes(insts) == MappingVolumes(InstanceMappings(insts))
    decreases |insts|
  {
    if insts != [] {
      var n := |insts| - 1;
      InstanceVolumesFlat(insts[..n]);
      MappingVolumesAppend(InstanceMappings(insts[..n]), insts[n].mappings);
    }
  }

  /** Collecting reservation by reservation is collecting over all the
      mappings of the response, in the loops' order. */
  lemma {:induction false} ReservationVolumesFlat(rs: seq<Reservation>)
    ensures ReservationVolumes(rs) == MappingVolumes(ReservationMappings(rs))
    decreases |rs|
  {
    if rs != [] {
      var n := |rs| - 1;
      ReservationVolumesFlat(rs[..n]);
      InstanceVolumesFlat(rs[n].instances);
      MappingVolumesAppend(ReservationMappings(rs[..n]), InstanceMappings(rs[n].instances));
    }
  }

  /** `vols` are the volume ids of the mappings at the strictly increasing
      positions `pos`, and every mapping at any other position has none. */
  ghost predicate VolumesAt(ms: seq<BlockDeviceMapping>, vols: seq<string>, pos: seq<nat>) {
    && |pos| == |vols|
    && (forall j :: 0 <= j < |pos| ==> pos[j] < |ms| && VolumeOf(ms[pos[j]]) == Some(vols[j]))
    && (forall j, k :: 0 <= j < k < |pos| ==> pos[j] < pos[k])
    && (forall k: nat :: k < |ms| && k !in pos ==> VolumeOf(ms[k]) == None)
  }

  /** A last mapping without a volume adds no id. */
  lemma SnocNone(ms: seq<BlockDeviceMapping>, vols: seq<string>, pos: seq<nat>)
    requires ms != [] && VolumeOf(ms[|ms| - 1]) == None
    requires VolumesAt(ms[..|ms| - 1], vols, pos)
    ensures VolumesAt(ms, vols, pos)
  {
    var n := |ms| - 1;
    forall j | 0 <= j < |pos| ensures pos[j] < |ms| && VolumeOf(ms[pos[j]]) == Some(vols[j]) {
      assert ms[pos[j]] == ms[..n][pos[j]];
    }
    forall k: nat | k < |ms| && k !in pos ensures VolumeOf(ms[k]) == None {
      if k < n {
        assert ms[k] == ms[..n][k];
      }
    }
  }

  /** A last mapping with a volume adds its id at the last position. */
  lemma SnocSome(ms: seq<BlockDeviceMapping>, vols: seq<string>, pos: seq<nat>)
    requires ms != [] && VolumeOf(ms[|ms| - 1]).Some?
    requires VolumesAt(ms[..|ms| - 1], vols, pos)
    ensures VolumesAt(ms, vols + [VolumeOf(ms[|ms| - 1]).value], pos + [|ms| - 1])
  {
    var n := |ms| - 1;
    var pos' := pos + [n];
    var vols' := vols + [VolumeOf(ms[n]).value];
    forall j | 0 <= j < |pos'| ensures pos'[j] < |ms| && VolumeOf(ms[pos'[j]]) == Some(vols'[j]) {
      if j < |pos| {
        assert ms[pos[j]] == ms[..n][pos[j]];
      }
    }
    forall k: nat | k < |ms| && k !in pos' ensures VolumeOf(ms[k]) == None {
      assert k != pos'[|pos|];
      assert k !in pos;
      assert ms[k] == ms[..n][k];
    }
  }

  /** One volume id per mapping that has one, in the order of the mappings:
      the ids sit at increasing positions, and every mapping left out has no
      volume id. */
  lemma {:induction false} MappingVolumesPositions(ms: seq<BlockDeviceMapping>)
    ensures exists pos :: VolumesAt(ms, MappingVolumes(ms), pos)
    decreases |ms|
  {
    if ms == [] {
      assert VolumesAt(ms, MappingVolumes(ms), []);
    } else {
      var n := |ms| - 1;
      MappingVolumesPositions(ms[..n]);
      var pos :| VolumesAt(ms[..n], MappingVolumes(ms[..n]), pos);
      if VolumeOf(ms[n]).Some? {
        SnocSome(ms, MappingVolumes(ms[..n]), pos);
        assert VolumesAt(ms, MappingVolumes(ms), pos + [n]);
      } else {
        SnocNone(ms, MappingVolumes(ms[..n]), pos);
        assert VolumesAt(ms, MappingVolumes(ms), pos);
      }
    }
  }

  /** `vol_ids` holds one id per mapping with a non-empty `VolumeId`, in
      reservation, instance, mapping order, repeats included, and skips
      only mappings without one. */
  lemma VolumeIdsPositions(desc: Description)
    ensures exists pos :: VolumesAt(ReservationMappings(desc.reservations), VolumeIds(desc), pos)
  {
    ReservationVolumesFlat(desc.reservations);
    var ms := ReservationMappings(desc.reservations);
    MappingVolumesPositions(ms);
    var pos :| VolumesAt(ms, MappingVolumes(ms), pos);
    assert VolumesAt(ms, VolumeIds(desc), pos);
  }

  /** Lines 90-96: the nested loops over reservations, instances and
      block-device mappings. */
  method CollectVolumeIds(desc: Description) returns (volIds: seq<string>)
    ensures volIds == VolumeIds(desc)
  {
    volIds := [];
    var rs := desc.reservations;
    for r := 0 to |rs|
      invariant volIds == ReservationVolumes(rs[..r])
    {
      ghost var fromReservations := volIds;
      var insts := rs[r].instances;
      for i := 0 to |insts|
        invariant volIds == fromReservations + InstanceVolumes(insts[..i])
      {
        ghost var fromInstances := volIds;
        var ms := insts[i].mappings;
        for m := 0 to |ms|
          invariant volIds == fromInstances + MappingVolumes(ms[..m])
        {
          var ebs := ms[m].ebs;
          if ebs.Some? && ebs.value.volumeId.Some? && ebs.value.volumeId.value != "" {
            volIds := volIds + [ebs.value.volumeId.value];
          }
          assert ms[..m + 1][..m] == ms[..m];
        }
        assert ms[..|ms|] == ms;
        assert insts[..i + 1][..i] == insts[..i];
      }
      assert insts[..|insts|] == insts;
      assert rs[..r + 1][..r] == rs[..r];
    }
    assert rs[..|rs|] == rs;
  }

  /** The answer of EC2 to the k-th `create_snapshot` / `create_tags` pair:
      both return, `create_snapshot` raises, or the snapshot is created and
      `create_tags` raises. */
  datatype SnapshotCall = Created(snapshot: string) | CreateRaised | TagRaised(snapshot: string)

  /** The tags put on every snapshot (lines 106-109). */
  function IrTags(iid: string): seq<Tag> {
    [Tag("IR", "true"), Tag("InstanceId", iid)]
  }

  /** The snapshot ids returned so far, or `Raised`, and the events so far. */
  datatype Creation = Creation(result: Answer<seq<string>>, emitted: seq<Event>)

  /** Lines 97-111: one snapshot per volume in order, each tagged; the first
      call that raises ends the loop, and what was created before it stays. */
  function Creating(iid: string, vols: seq<string>, call: nat -> SnapshotCall): Creation
    decreases |vols|
  {
    if vols == [] then Creation(Returned([]), [])
    else
      var n := |vols| - 1;
      var before := Creating(iid, vols[..n], call);
      if before.result.Raised? then before
      else
        match call(n)
        case Created(sid) =>
          Creation(Returned(before.result.value + [sid]),
                   before.emitted + [SnapshotCreated(vols[n], sid, iid), SnapshotTagged(sid, IrTags(iid))])
        case TagRaised(sid) =>
          Creation(Raised, before.emitted + [SnapshotCreated(vols[n], sid, iid)])
        case CreateRaised =>
          Creation(Raised, before.emitted)
  }

  /** Once a call has raised, later volumes are never reached. */
  lemma {:induction false} RaisedStops(iid: string, vols: seq<string>, call: nat -> SnapshotCall, n: nat)
    requires n <= |vols|
    requires Creating(iid, vols[..n], call).result.Raised?
    ensures Creating(iid, vols, call) == Creating(iid, vols[..n], call)
    decreases |vols| - n
  {
    if n < |vols| {
      var m := |vols| - 1;
      assert vols[..m][..n] == vols[..n];
      RaisedStops(iid, vols[..m], call, n);
    } else {
      assert vols[..n] == vols;
    }
  }

  /** The loop returns normally exactly when every call returned; then there
      is one snapshot per volume, in volume order, each created from its
      volume and then tagged `IR=true`, `InstanceId=iid`. */
  lemma {:induction false} CreatingReturned(iid: string, vols: seq<string>, call: nat -> SnapshotCall)
    ensures var c := Creating(iid, vols, call);
      c.result.Returned? <==> forall k :: 0 <= k < |vols| ==> call(k).Created?
    ensures var c := Creating(iid, vols, call);
      c.result.Returned? ==>
        && |c.result.value| == |vols|
        && |c.emitted| == 2 * |vols|
        && forall k :: 0 <= k < |vols| ==>
          && call(k) == Created(c.result.value[k])
          && c.emitted[2 * k] == SnapshotCreated(vols[k], c.result.value[k], iid)
          && c.emitted[2 * k + 1] == SnapshotTagged(c.result.value[k], IrTags(iid))
    decreases |vols|
  {
    if vols != [] {
      var n := |vols| - 1;
      CreatingReturned(iid, vols[..n], call);
      var before := Creating(iid, vols[..n], call);
      var c := Creating(iid, vols, call);
      if before.result.Returned? {
        match call(n)
        case Created(sid) =>
          assert c == Creation(Returned(before.result.value + [sid]),
            before.emitted + [SnapshotCreated(vols[n], sid, iid), SnapshotTagged(sid, IrTags(iid))]);
          forall k | 0 <= k < |vols|
            ensures && call(k) == Created(c.result.value[k])
                    && c.emitted[2 * k] == SnapshotCreated(vols[k], c.result.value[k], iid)
                    && c.emitted[2 * k + 1] == SnapshotTagged(c.result.value[k], IrTags(iid))
          {
            if k < n {
              assert vols[..n][k] == vols[k];
            }
          }
        case TagRaised(_) =>
          assert c.result.Raised? && !call(n).Created?;
        case CreateRaised =>
          assert c.result.Raised? && !call(n).Created?;
      } else {
        var k :| 0 <= k < n && !call(k).Created?;
      }
    }
  }

  /** The snapshot loop only creates snapshots of this instance's volumes and
      tags them `IR=true`, `InstanceId=iid`; it starts nothing and sends
      nothing. */
  lemma {:induction false} CreatingEvents(iid: string, vols: seq<string>, call: nat -> SnapshotCall)
    ensures var e := Creating(iid, vols, call).emitted;
      forall k :: 0 <= k < |e| ==>
        || (e[k].SnapshotCreated? && e[k].instance == iid && e[k].volume in vols)
        || (e[k].SnapshotTagged? && e[k].tags == IrTags(iid))
    decreases |vols|
  {
    if vols != [] {
      var n := |vols| - 1;
      CreatingEvents(iid, vols[..n], call);
      var c := Creating(iid, vols[..n], call);
      var before := c.emitted;
      assert forall k :: 0 <= k < |before| ==>
        || (before[k].SnapshotCreated? && before[k].instance == iid && before[k].volume in vols[..n])
        || (before[k].SnapshotTagged? && before[k].tags == IrTags(iid))
      by {
        assert var e := Creating(iid, vols[..n], call).emitted;
          forall k :: 0 <= k < |e| ==>
            || (e[k].SnapshotCreated? && e[k].instance == iid && e[k].volume in vols[..n])
            || (e[k].SnapshotTagged? && e[k].tags == IrTags(iid));
      }
      var e := Creating(iid, vols, call).emitted;
      var added: seq<Event> :=
        if c.result.Raised? then []
        else match call(n)
          case Created(sid) => [SnapshotCreated(vols[n], sid, iid), SnapshotTagged(sid, IrTags(iid))]
          case TagRaised(sid) => [SnapshotCreated(vols[n], sid, iid)]
          case CreateRaised => [];
      assert e == before + added;
      forall k | 0 <= k < |e|
        ensures || (e[k].SnapshotCreated? && e[k].instance == iid && e[k].volume in vols)
                || (e[k].SnapshotTagged? && e[k].tags == IrTags(iid))
      {
        if k < |before| {
          assert e[k] == before[k];
          if before[k].SnapshotCreated? {
            var v := before[k].volume;
            assert v in vols[..n];
            var i :| 0 <= i < n && vols[..n][i] == v;
            assert vols[i] == v;
          }
        } else {
          assert vols[n] in vols;
        }
      }
    }
  }

  /** `_snapshots_for_instance` only creates and tags snapshots. */
  lemma CaptureEvents(iid: string, describe: Answer<Description>, call: nat -> SnapshotCall)
    ensures var e := Capture(iid, describe, call).emitted;
      forall k :: 0 <= k < |e| ==> e[k].SnapshotCreated? || e[k].SnapshotTagged?
  {
    if describe.Returned? {
      var vols := VolumeIds(describe.value);
      CreatingEvents(iid, vols, call);
      assert var e := Creating(iid, vols, call).emitted;
        forall k :: 0 <= k < |e| ==>
          || (e[k].SnapshotCreated? && e[k].instance == iid && e[k].volume in vols)
          || (e[k].SnapshotTagged? && e[k].tags == IrTags(iid));
    }
  }

  /** Lines 97-111, the loop over `vol_ids`. */
  method CreateSnapshots(out: Outbox, iid: string, vols: seq<string>, call: nat -> SnapshotCall)
    returns (result: Answer<seq<string>>)
    modifies out
    ensures result == Creating(iid, vols, call).result
    ensures out.events == old(out.events) + Creating(iid, vols, call).emitted
  {
    var snaps := [];
    for i := 0 to |vols|
      invariant Creating(iid, vols[..i], call).result == Returned(snaps)
      invariant out.events == old(out.events) + Creating(iid, vols[..i], call).emitted
    {
      assert vols[..i + 1][..i] == vols[..i];
      match call(i) {
        case CreateRaised =>
          RaisedStops(iid, vols, call, i + 1);
          return Raised;
        case TagRaised(sid) =>
          out.events := out.events + [SnapshotCreated(vols[i], sid, iid)];
          RaisedStops(iid, vols, call, i + 1);
          return Raised;
        case Created(sid) =>
          snaps := snaps + [sid];
          out.events := out.events + [SnapshotCreated(vols[i], sid, iid), SnapshotTagged(sid, IrTags(iid))];
      }
    }
    assert vols[..|vols|] == vols;
    return Returned(snaps);
  }

  /** `_snapshots_for_instance(iid)` as a whole: `describe_instances` may
      raise; otherwise the collected volumes are snapshotted. */
  function Capture(iid: string, describe: Answer<Description>, call: nat -> SnapshotCall): Creation {
    if describe.Raised? then Creation(Raised, [])
    else Creating(iid, VolumeIds(describe.value), call)
  }

  /** Lines 87-111. */
  method SnapshotsForInstance(out: Outbox, iid: string, describe: Answer<Description>, call: nat -> SnapshotCall)
    returns (result: Answer<seq<string>>)
    modifies out
    ensures result == Capture(iid, describe, call).result
    ensures out.events == old(out.events) + Capture(iid, describe, call).emitted
  {
    if describe.Raised? {
      return Raised;
    }
    var volIds := CollectVolumeIds(describe.value);
    result := CreateSnapshots(out, iid, volIds, call);
  }
}

=== FILE: wrappers.dfy ===
/** Small value wrappers shared by every module of the model. */
module Wrappers {

  /** A value that may be absent (Python's `None`). */
  datatype Option<+T> = None | Some(value: T)

  /** The outcome of a call into a collaborator the model cannot see
      (boto3, urllib): it either returns a value or raises. */
  datatype Answer<+T> = Returned(value: T) | Raised
}
